=== FILE: README.md ===
# Notes app core, modelled in Dafny

A model of the logic at the heart of a browser notes application (React and
TypeScript). The model covers:

- Notes and tags, kept as two collections that are saved whenever they change.
- The URL, which holds all UI state:
  - the view (all notes or archived notes);
  - the selected tag;
  - the open note;
  - whether the delete dialog is open;
  - the search text.
- The note list the interface shows: filtered, then sorted most recent first.
- Three small pieces of UI state:
  - tag autocompletion with keyboard selection;
  - the note editor, whose snapshot lets Cancel undo edits or discard a blank new note;
  - renaming a tag in place.

Modules follow the source files:

| module | file | models |
|---|---|---|
| `Types` | `types.dfy` | the `Note` and `Tag` records, and `Partial<Note>` as `Patch` |
| `NoteService`, `TagService` | `note_service.dfy`, `tag_service.dfy` | the pure collection operations |
| `Manager` | `notes_manager.dfy` | the `useNotesManager` hook: a class holding `notes` and `tags`, plus ghost copies of what storage holds |
| `Navigation` | `navigation.dfy` | path parsing and building, `URLSearchParams`, and the navigation setters as a class over the current location |
| `FilteredNotes` | `filtered_notes.dfy` | search, tag and view filtering, and the recency sort |
| `NotesContext` | `notes_context.dfy` | the provider that composes manager operations with navigation |
| `TagNavigation` | `tag_navigation.dfy` | `useTagNavigation` |
| `NoteEditor` | `note_editor.dfy` | `useNoteEditor` |
| `TagItem` | `tag_item.dfy` | `useTagItem` |
| `Text`, `Seqs`, `Wrappers` | `text.dfy`, `seqs.dfy`, `wrappers.dfy` | helpers: JavaScript string semantics (truthiness, `toLowerCase`, `includes`, `trim`), `Array.prototype.filter`/`map`, and `Option` |

Inputs from outside the program are parameters:

- `crypto.randomUUID()` is `id` or `freshId`, with a precondition that it is not already in use.
- `new Date().toISOString()` is `now`.
- Date parsing for the sort (`new Date(x).getTime()`) is `epoch: string -> int`.
- The answer to `confirm(...)` is `confirmed`.

React state that the source replaces on each update is a class field, and the setters are methods. A `useEffect` becomes a method the caller runs after the state it depends on changes: `NoteEditor.Editor.Sync` is the snapshot effect. The persist effects become the ghost fields of `Manager.NotesManager`, tied to the collections by `Valid()`.

Points where the code is looser than one might expect:

- `addTag` lowercases names but does not trim them, so `"Work "` and `"work"` are different tags. Only the tag input (`useTagNavigation`) and tag renaming (`useTagItem`) trim.
- Nothing bounds titles or tag names, and no manager or service operation trims them.
- `addTag` keeps tag names unique up to case (`Manager.AddTagKeepsNamesUnique`), but `updateTag` renames without a uniqueness check (`Manager.UpdateTagMayDuplicateNames`).

## Model

| member | source | states |
|---|---|---|
| NoteService.CreateDefaultNote | src/services/NoteService.ts:4-13 | a new note has the given id and timestamp, empty title, content and tags, and is not archived |
| NoteService.Update | src/services/NoteService.ts:15-25 | same length and order; notes with another id are untouched; notes with the id are `{...n, ...u}`, stamped with `u.lastEdited` when that is a non-empty string and with the clock otherwise; ids are kept unless `u` sets one; an unknown id changes nothing |
| NoteService.Delete | src/services/NoteService.ts:27-29 | exactly the notes with another id remain, each as often as before and in their original order; none with the id is left; an unknown id changes nothing |
| NoteService.RemoveTagReference | src/services/NoteService.ts:31-36 | same number of notes; every field except `tags` is unchanged; each note's tags are its old tags minus the id, in order; no note keeps the id; every other tag id is kept |
| NoteService.RemoveTagReferenceIdempotent | src/services/NoteService.ts:31-36 | stripping a tag id twice gives the same notes as stripping it once |
| TagService.Create | src/services/TagService.ts:4-9 | a new tag has exactly the given id and the given name, untrimmed |
| TagService.Update | src/services/TagService.ts:11-13 | same length; ids kept at every position; tags with the id take the new name and every other tag keeps its name |
| TagService.Delete | src/services/TagService.ts:15-17 | exactly the tags with another id remain, each as often as before and in their original order |
| TagService.IndexOfName | src/services/TagService.ts:19-21 | the position of the first tag whose lowercased name equals the lowercased name, or the length when there is none |
| TagService.IndexOfNameIgnoresCase | src/services/TagService.ts:19-21 | two names that lowercase alike find the same tag |
| TagService.FindByName | src/services/TagService.ts:19-21 | nothing exactly when no tag matches up to case; otherwise the first matching tag, which belongs to the collection |
| TagService.GetName | src/services/TagService.ts:23-25 | `''` when no tag has the id; otherwise the name of the first tag that does |
| Manager.NotesManager.constructor | src/hooks/useNotesManager.ts:7-13 | starts from what storage returned, with storage and memory agreeing |
| Manager.NotesManager.CreateNote | src/hooks/useNotesManager.ts:23-34 | returns a blank unarchived note with the fresh id and the current time; it goes first and the old notes follow in order; tags untouched; storage updated |
| Manager.NotesManager.UpdateNote | src/hooks/useNotesManager.ts:36-48 | the notes become `NoteService.Update` of the old notes; tags untouched; storage updated |
| Manager.NotesManager.DeleteNote | src/hooks/useNotesManager.ts:50-52 | the notes become `NoteService.Delete` of the old notes, and no note has the id |
| Manager.NotesManager.ArchiveNote | src/hooks/useNotesManager.ts:54-56 | an update of `isArchived` to true; every note with the id is archived and stamped with the current time, even if it was archived already |
| Manager.NotesManager.UnarchiveNote | src/hooks/useNotesManager.ts:58-60 | an update of `isArchived` to false; every note with the id is unarchived and stamped with the current time |
| Manager.AddTagTo | src/hooks/useNotesManager.ts:62-69 | the returned tag matches the name up to case and is in the new collection; the old tags are a prefix of it and it grows by at most one; it grows exactly when no tag matched, and then the new tag is exactly `{freshId, name}`; otherwise nothing changes and the tag returned is the first match, as `find` gives, even when renaming has left several case-equal names |
| Manager.NotesManager.AddTag | src/hooks/useNotesManager.ts:62-69 | returns the tag `AddTagTo` gives and leaves its collection; notes untouched; storage updated |
| Manager.AddTagKeepsNamesUnique | src/hooks/useNotesManager.ts:62-69 | if no two tag names are equal up to case, `addTag` keeps it so |
| Manager.AddTagCaseVariants | src/hooks/useNotesManager.test.ts:78-107 | `addTag` twice with names that differ only in case gives the same tag id; the second call changes nothing; together they add at most one tag |
| Manager.NotesManager.UpdateTag | src/hooks/useNotesManager.ts:71-73 | the tags become `TagService.Update` of the old tags; notes untouched |
| Manager.UpdateTagMayDuplicateNames | src/hooks/useNotesManager.ts:71-73 | renaming does not check for clashes: renaming `Home` to `work` beside `Work` leaves two names equal up to case |
| Manager.NotesManager.DeleteTag | src/hooks/useNotesManager.ts:75-83 | the tags lose the id, the notes lose every reference to it, and a state with no dangling tag ids keeps none |
| Manager.DeleteTagLeavesNoDangling | src/hooks/useNotesManager.ts:75-83 | after deleting a tag, no note refers to it, no tag has its id, and every tag id a note holds still names a tag |
| Navigation.Split | src/hooks/useNotesNavigation.ts:10 | `split('/')` yields at least one piece, and no piece contains a slash |
| Navigation.Segments | src/hooks/useNotesNavigation.ts:10 | every segment is non-empty and free of slashes |
| Navigation.SegmentsOfJoin | src/hooks/useNotesNavigation.ts:10 | splitting pieces joined by slashes gives the pieces back |
| Navigation.ParseSegments | src/hooks/useNotesNavigation.ts:16-30 | the state read off the segments is well formed: every tag or note id found is a single non-empty segment, the archived view has no tag, and a note at the root is never named `archived` or `tags`; which state each path gives is stated by `Navigation.RoundTrip` and the `Navigation.Parses*Paths` lemmas |
| Navigation.Parse | src/hooks/useNotesNavigation.ts:10-30 | the same well-formedness guarantees, for the state read off a whole path; the mapping itself is stated by `Navigation.RoundTrip` |
| Navigation.ParsesRootPaths | src/hooks/useNotesNavigation.test.tsx:23-85 | `/`, `/note-1` and `/note-1/delete` parse to the root list, the open note, and the open note with the delete dialog |
| Navigation.ParsesArchivedPaths | src/hooks/useNotesNavigation.test.tsx:42-58 | `/archived` and `/archived/note-2` parse to the archived view, without and with the open note |
| Navigation.ParsesTagPaths | src/hooks/useNotesNavigation.test.tsx:60-76 | `/tags/tag-1` and `/tags/tag-1/note-3` parse to the tag, without and with the open note |
| Navigation.Get | src/hooks/useNotesNavigation.ts:8 | `get` returns the value of the first pair with that name, and nothing exactly when no pair has the name |
| Navigation.DeleteParam | src/hooks/useNotesNavigation.ts:66 | exactly the pairs with other names remain |
| Navigation.SetParam | src/hooks/useNotesNavigation.ts:64 | the new pair is present; pairs with other names are neither lost nor added |
| Navigation.GetAfterSet | src/hooks/useNotesNavigation.ts:64 | after `set`, `get` gives the new value, and other names read as before |
| Navigation.GetAfterDelete | src/hooks/useNotesNavigation.ts:66 | after `delete`, `get` finds nothing for that name, and other names read as before |
| Navigation.SearchQueryRoundTrip | src/hooks/useNotesNavigation.ts:61-69 | after `setSearchQuery(q)`, the search text reads back as `q` (an empty `q` removes the parameter and reads back as `''`), and no other parameter changes |
| Navigation.GetPathForNote | src/hooks/useNotesNavigation.ts:32-47 | the query string is carried over unchanged |
| Navigation.PathForNoteIsJoin | src/hooks/useNotesNavigation.ts:32-44 | the built path is the context's pieces, then the note, then `delete` only when asked for with a note, joined by slashes (`/` when there are none) |
| Navigation.RoundTrip | src/hooks/useNotesNavigation.ts:10-47 | parsing the path built for a note gives back the view and tag, that note as the open note, and the dialog open exactly when `delete` was asked for with a note, for ids that are segments other than `delete` and, at the root, not `archived` or `tags` |
| Navigation.ParsedIsAddressable | src/hooks/useNotesNavigation.ts:10-47 | any state read off a path can be rebuilt by `getPathForNote`, unless its tag or note is literally `delete` |
| Navigation.Navigator.constructor | src/hooks/useNotesNavigation.ts:4-6 | the hook reads the location it is given |
| Navigation.Navigator.State | src/hooks/useNotesNavigation.ts:10-30 | the state read off the current path: the archived view has no tag, and unless a tag or note id is `delete` the open note can be written back into a path of the same context |
| Navigation.Navigator.SearchQuery | src/hooks/useNotesNavigation.ts:8 | the value of the first `q` parameter, or `''` when there is none |
| Navigation.Navigator.SetActiveNoteId | src/hooks/useNotesNavigation.ts:49-51 | navigates to the note's path in the current context; the state read back is the old one with that note open and no dialog; the search text is unchanged |
| Navigation.Navigator.OpenDeleteModal | src/hooks/useNotesNavigation.ts:53-55 | navigates to the note's path plus `/delete`; the state read back has that note open and the dialog open |
| Navigation.Navigator.CloseDeleteModal | src/hooks/useNotesNavigation.ts:57-59 | navigates to the open note's path without `/delete`; the state read back is the old one with the dialog closed |
| Navigation.Navigator.SetSearchQuery | src/hooks/useNotesNavigation.ts:61-69 | same path, the query set or removed; the search text reads back as given and the path state does not change |
| Navigation.Navigator.SetSelectedTagId | src/hooks/useNotesNavigation.ts:71-77 | navigates to `/tags/<id>`, or to `/` for no id, with the query kept; the state read back is that tag in the all view, with no note open and no dialog |
| Navigation.Navigator.SetView | src/hooks/useNotesNavigation.ts:79-85 | navigates to `/archived` or `/`, with the query kept; the state read back is that view, with no tag, no note and no dialog |
| FilteredNotes.Insert | src/hooks/useFilteredNotes.ts:21 | inserting keeps every note, adds exactly one, and keeps a most-recent-first list sorted |
| FilteredNotes.SortByRecency | src/hooks/useFilteredNotes.ts:21 | the result is a permutation of the input, most recently edited first |
| FilteredNotes.SortSortedIsIdentity | src/hooks/useFilteredNotes.ts:21 | sorting a list that is already most-recent-first changes nothing |
| FilteredNotes.FilterNotes | src/hooks/useFilteredNotes.ts:9-24 | every note shown matches the search (title or content, ignoring case), the tag and the view; each matching note appears as often as it is stored and no other does; the list is most-recent-first |
| FilteredNotes.EmptySearchMatchesAll | src/hooks/useFilteredNotes.ts:12-14 | an empty search text matches every note |
| FilteredNotes.NoFilterShowsWholeView | src/hooks/useFilteredNotes.ts:12-17 | with no search text and no tag, a view shows exactly its notes |
| FilteredNotes.ViewsPartition | src/hooks/useFilteredNotes.ts:17 | every note that matches the search and tag is shown in exactly one of the two views |
| FilteredNotes.NewNoteListed | src/context/NotesContext.tsx:37-55 | a note just created is listed only in the all view with no tag and no search text |
| NotesContext.NotesProvider.constructor | src/context/NotesContext.tsx:33-35 | the provider joins the given navigation and manager |
| NotesContext.NotesProvider.Notes | src/context/NotesContext.tsx:37-50 | `notes` holds exactly the stored notes that match the URL's search, tag and view, most recent first |
| NotesContext.NotesProvider.AllNotes | src/context/NotesContext.tsx:77 | `allNotes` is exactly the manager's list, which contains every listed note |
| NotesContext.NotesProvider.CreateNote | src/context/NotesContext.tsx:52-55 | the new blank note goes first in storage, and the URL opens it in the current context |
| NotesContext.NotesProvider.DeleteNote | src/context/NotesContext.tsx:57-64 | the note is removed; if it was open nothing is open, otherwise the open note stays; either way the dialog closes and the deleted note is not open |
| NotesContext.NotesProvider.ArchiveNote | src/context/NotesContext.tsx:66-71 | the note is archived; the URL changes only if the note was open, and then it is no longer open |
| NotesContext.NotesProvider.UnarchiveNote | src/context/NotesContext.tsx:94 | the note is unarchived and the URL is left alone |
| TagNavigation.Suggestions | src/components/tags/useTagNavigation.ts:19-22 | exactly the tags whose lowercased name contains the lowercased input and that the note does not carry yet, in the order of the tag collection, which decides what Enter at a given row adds |
| TagNavigation.SuggestionsCount | src/components/tags/useTagNavigation.ts:19-22 | each suggestion is listed exactly as often as it occurs among the tags |
| TagNavigation.SuggestionIsNew | src/components/tags/useTagNavigation.ts:36-38 | the suggestion at any highlighted row is a stored tag the note does not carry |
| TagNavigation.Next | src/components/tags/useTagNavigation.ts:29 | ArrowDown lands on a row in `[0, n]` from any start: one row down, and from the create row back to the top |
| TagNavigation.Prev | src/components/tags/useTagNavigation.ts:32 | ArrowUp lands on a row in `[0, n]` from any start: one row up, and from the top to the create row |
| TagNavigation.PrevNextInverse | src/components/tags/useTagNavigation.ts:27-32 | Up undoes Down and Down undoes Up on every row |
| TagNavigation.NextTimesIsShift | src/components/tags/useTagNavigation.ts:29 | up to one full round (`k <= n + 1`), `k` presses of Down move `k` rows on, wrapping after the create row |
| TagNavigation.NextCycles | src/components/tags/useTagNavigation.ts:29 | `n + 1` presses of Down return to the starting row |
| TagNavigation.TagNavigator.constructor | src/components/tags/useTagNavigation.ts:16-17 | the input starts empty with the first row highlighted |
| TagNavigation.TagNavigator.SetNewTagName | src/components/tags/useTagNavigation.ts:16 | `setNewTagName` replaces the text and leaves the highlight |
| TagNavigation.TagNavigator.SetSelectedIndex | src/components/tags/useTagNavigation.ts:17 | `setSelectedIndex` replaces the highlight and leaves the text |
| TagNavigation.TagNavigator.HandleKeyDown | src/components/tags/useTagNavigation.ts:24-49 | with empty input nothing happens; the arrows move the highlight; Enter adds the highlighted suggestion, or on the create row asks for the trimmed text when it is not blank, then clears; Escape clears; an existing tag added is never one the note has; a new name is non-blank and trimmed |
| NoteEditor.FindNote | src/hooks/useNoteEditor.ts:9 | no note when none is open or no note has the id; otherwise a stored note with that id |
| NoteEditor.FindAfterUpdate | src/hooks/useNoteEditor.ts:9 | after an update that keeps ids, the open note is the update merged into the note open before |
| NoteEditor.Editor.constructor | src/hooks/useNoteEditor.ts:12-13 | both refs start empty: no snapshot and no remembered note |
| NoteEditor.Editor.Sync | src/hooks/useNoteEditor.ts:16-28 | the snapshot is taken only when a different existing note opens, is cleared when no note is open, and otherwise is kept however the note is edited |
| NoteEditor.RevertPatch | src/hooks/useNoteEditor.ts:62-66 | the revert update touches neither id, tags nor the archived flag |
| NoteEditor.RevertRestores | src/hooks/useNoteEditor.ts:60-66 | reverting to the snapshot gives back the note as opened, timestamp included, whatever title and content edits were made |
| NoteEditor.RevertWithoutTimestamp | src/hooks/useNoteEditor.ts:62-66 | with an empty remembered timestamp, the revert is stamped with the current time |
| NoteEditor.CreatedNoteIsNew | src/hooks/useNoteEditor.ts:55 | a note created by `createNote` and still untagged counts as new on Cancel |
| NoteEditor.Editor.HandleSave | src/hooks/useNoteEditor.ts:43-46 | no note data changes; the URL closes the note, and no note is open afterwards when the context is addressable |
| NoteEditor.Editor.HandleCancel | src/hooks/useNoteEditor.ts:48-70 | a note opened empty and still untagged is deleted; any other note with a snapshot gets its title, content and timestamp back; without a note or snapshot nothing is stored; the URL closes the note, and no note is open afterwards when the context is addressable |
| NoteEditor.AttachTag | src/hooks/useNoteEditor.ts:74-75 | an id already present changes nothing; a missing id is appended once, at the end; afterwards the id is present and nothing else was added |
| NoteEditor.AttachTagKeepsUnique | src/hooks/useNoteEditor.ts:72-85 | attaching never gives a note the same tag twice |
| NoteEditor.DetachTag | src/hooks/useNoteEditor.ts:89 | exactly the other tag ids remain, each as often as before and in their original order |
| NoteEditor.DetachUndoesAttach | src/hooks/useNoteEditor.ts:72-90 | removing a tag undoes adding it, if the note did not have it before |
| NoteEditor.Editor.AddExistingTag | src/hooks/useNoteEditor.ts:72-77 | without an open note nothing happens; otherwise the note ends up carrying the tag, added once at the end only if it was missing |
| NoteEditor.Editor.HandleAddTag | src/hooks/useNoteEditor.ts:79-85 | without an open note nothing happens, not even tag creation; otherwise the tag is found or created as by `addTag`, and the open note ends up carrying it |
| NoteEditor.Editor.RemoveTag | src/hooks/useNoteEditor.ts:87-90 | without an open note nothing happens; otherwise the open note keeps every tag but that one |
| NoteEditor.Editor.UpdateTitle | src/hooks/useNoteEditor.ts:92-95 | without an open note nothing happens; otherwise the notes become `NoteService.Update` of the title, so every other note is untouched, and the open note has the new title and a fresh timestamp and is otherwise unchanged |
| NoteEditor.Editor.UpdateContent | src/hooks/useNoteEditor.ts:97-100 | without an open note nothing happens; otherwise the notes become `NoteService.Update` of the content, so every other note is untouched, and the open note has the new content and a fresh timestamp and is otherwise unchanged |
| TagItem.TagRow.constructor | src/components/tags/useTagItem.ts:12-13 | a row starts not editing, with the field holding the tag's name |
| TagItem.TagRow.SetEditName | src/components/tags/useTagItem.ts:13 | `setEditName` replaces the field and leaves edit mode as it was |
| TagItem.TagRow.StartEditing | src/components/tags/useTagItem.ts:30-34 | edit mode on; the field keeps its text |
| TagItem.TagRow.ExitEditing | src/components/tags/useTagItem.ts:36-39 | edit mode off; the field is reset to the tag's current name |
| TagItem.TagRow.HandleSubmit | src/components/tags/useTagItem.ts:22-28 | blank text changes nothing and stays in edit mode; otherwise the tag is renamed to the trimmed text, which is non-blank and trimmed, and edit mode ends |
| TagItem.TagRow.HandleDelete | src/components/tags/useTagItem.ts:41-47 | only a confirmed delete removes the tag and strips it from every note; no dangling tag ids appear |
| Seqs.Filter | src/services/TagService.ts:15-17 | `filter` keeps exactly the elements satisfying the predicate, as a subsequence in their original order |
| Seqs.FilterMultiset | src/services/NoteService.ts:27-29 | `filter` keeps each kept element exactly as often as it occurs |
| Seqs.FilterUnique | src/services/TagService.ts:15-17 | order and multiplicity together determine the filter: any order-keeping selection holding exactly the satisfying elements, as often as they occur, is the filter's result |
| Text.Lower | src/services/TagService.ts:20 | `toLowerCase` keeps the length, maps each character, and leaves no upper-case ASCII letter |
| Text.ContainsAt | src/hooks/useFilteredNotes.ts:13 | `includes` holds exactly when the text occurs at some position |
| Text.Trim | src/components/tags/useTagItem.ts:24-25 | `trim` returns the slice of the input between its leading and its trailing whitespace: all of the input before and after it is whitespace, and the slice has no whitespace at either end; it is empty exactly when the input is all whitespace |

## Left out

- Storage:
  - The storage providers (`localStorage`, the File System Access API and IndexedDB) are not part of this model, and neither is the JSON and schema validation of what they return.
  - The manager starts from whatever collections storage returned, and the ghost fields stand for what was last written.
  - Persistence failures and asynchronous loading are not modelled.
- React:
  - Rendering, effect scheduling, update batching and stale closures are not modelled. For example, `addTag` reads the `tags` of the current render, so two calls within one render could both append. Each modelled method runs on the current state, one event at a time.
  - The focus effect of `useTagItem`, `preventDefault` and `stopPropagation` are DOM concerns.
- The URL:
  - The path is a string and the query is a list of already-decoded name/value pairs.
  - Percent-encoding is not modelled, and neither is the serialisation of `location.search`.
- Text and dates:
  - `toLowerCase` is modelled for ASCII letters only. Full Unicode case mapping is not modelled.
  - Date parsing is the `epoch` parameter. Invalid dates (`NaN` times), which make the sort's comparator inconsistent, are not modelled.
- Display concerns: components, layouts, settings, notifications, translations and date formatting. `NoteEditor.tsx` repeats the cancel logic of `useNoteEditor`, which is modelled once.
- FilteredNotes.SortByRecency: is a stable insertion sort, like the engine's `Array.prototype.sort`, but only permutation, order and `SortSortedIsIdentity` are stated, not that equal-time notes keep their relative order.
- NoteEditor.FindNote: does not state that the first of several notes with the same id is found. Ids are fresh UUIDs, so they are unique.
- Navigation.RoundTrip: holds only for ids that are non-empty, free of slashes and not `delete`. At the root, the note id must also not be `archived` or `tags`. With UUID ids these conditions always hold. Every method that navigates states the URL state it leaves only under these conditions (`Navigation.Addressable`): the `Navigator` setters, and `NotesProvider.CreateNote`, `DeleteNote` and `ArchiveNote`, and `Editor.HandleSave` and `HandleCancel`. Its new location is stated unconditionally. A tag whose id is `delete` would break this: closing the note under `/tags/delete` opens the delete dialog.
- TagNavigation.TagNavigator.HandleKeyDown: `selectedIndex` is a natural number, because every writer of it in the source stores a non-negative value. The arrow keys' `%` then behaves as in JavaScript.

=== FILE: filtered_notes.dfy ===
/**
 * The list of notes the application shows: the notes that match the search text,
 * the selected tag and the current view, most recently edited first.
 */
module FilteredNotes {
  import opened Wrappers
  import opened Seqs
  import opened Text
  import opened Types
  import Navigation
  import NoteService

  /** The title or the content contains the search text, ignoring case. */
  predicate MatchesSearch(n: Note, q: string) {
    Contains(Lower(n.title), Lower(q)) || Contains(Lower(n.content), Lower(q))
  }

  /** No tag is selected, or the note carries the selected tag. */
  predicate MatchesTag(n: Note, tagId: Option<string>) {
    !Truthy(tagId) || tagId.value in n.tags
  }

  /** The all-notes view shows unarchived notes, the archived view archived ones. */
  predicate MatchesView(n: Note, view: Navigation.View) {
    if view == Navigation.All then !n.isArchived else n.isArchived
  }

  predicate Matches(n: Note, q: string, tagId: Option<string>, view: Navigation.View) {
    MatchesSearch(n, q) && MatchesTag(n, tagId) && MatchesView(n, view)
  }

  function Visible(q: string, tagId: Option<string>, view: Navigation.View): Note -> bool {
    (n: Note) => Matches(n, q, tagId, view)
  }

  /** `new Date(n.lastEdited).getTime()`, with the date parser passed in as `epoch`. */
  function Time(n: Note, epoch: string -> int): int {
    epoch(n.lastEdited)
  }

  /** Most recent first: no note is followed by a more recently edited one. */
  predicate Sorted(s: seq<Note>, epoch: string -> int) {
    forall i, j :: 0 <= i < j < |s| ==> Time(s[i], epoch) >= Time(s[j], epoch)
  }

  /** Puts `x` before the first note that is not more recent than it. */
  function Insert(x: Note, s: seq<Note>, epoch: string -> int): (r: seq<Note>)
    ensures multiset(r) == multiset(s) + multiset{x}
    ensures forall y :: y in r ==> y == x || y in s
    ensures Sorted(s, epoch) ==> Sorted(r, epoch)
  {
    if s == [] then [x]
    else if Time(x, epoch) >= Time(s[0], epoch) then [x] + s
    else
      var rest := Insert(x, s[1..], epoch);
      assert s == [s[0]] + s[1..];
      assert Sorted(s, epoch) ==> Sorted([s[0]] + rest, epoch) by {
        if Sorted(s, epoch) {
          forall y | y in rest ensures Time(s[0], epoch) >= Time(y, epoch) {
            if y != x {
              var k :| 0 <= k < |s[1..]| && s[1..][k] == y;
              assert s[k + 1] == y;
            }
          }
        }
      }
      [s[0]] + rest
  }

  /**
   * `.sort((a, b) => time(b) - time(a))`: the same notes, most recent first.
   */
  function SortByRecency(s: seq<Note>, epoch: string -> int): (r: seq<Note>)
    ensures multiset(r) == multiset(s)
    ensures Sorted(r, epoch)
  {
    if s == [] then []
    else
      assert s == [s[0]] + s[1..];
      Insert(s[0], SortByRecency(s[1..], epoch), epoch)
  }

  /** Sorting notes that are already most-recent-first leaves them as they are. */
  lemma {:induction false} SortSortedIsIdentity(s: seq<Note>, epoch: string -> int)
    requires Sorted(s, epoch)
    ensures SortByRecency(s, epoch) == s
  {
    if s != [] {
      assert Sorted(s[1..], epoch);
      SortSortedIsIdentity(s[1..], epoch);
    }
  }

  /**
   * The notes shown: exactly the matching notes, each as often as in `notes`,
   * most recently edited first.
   */
  function FilterNotes(notes: seq<Note>, q: string, tagId: Option<string>, view: Navigation.View,
                       epoch: string -> int): (r: seq<Note>)
    ensures forall n :: n in r ==> Matches(n, q, tagId, view)
    ensures forall n :: multiset(r)[n] == if Matches(n, q, tagId, view) then multiset(notes)[n] else 0
    ensures Sorted(r, epoch)
  {
    var kept := Filter(notes, Visible(q, tagId, view));
    assert forall n :: multiset(kept)[n] == if Matches(n, q, tagId, view) then multiset(notes)[n] else 0 by {
      forall n ensures multiset(kept)[n] == if Matches(n, q, tagId, view) then multiset(notes)[n] else 0 {
        FilterMultiset(notes, Visible(q, tagId, view), n);
      }
    }
    SortByRecency(kept, epoch)
  }

  /** The empty search text matches every note. */
  lemma EmptySearchMatchesAll(n: Note)
    ensures MatchesSearch(n, "")
  {
    ContainsEmpty(Lower(n.title));
  }

  /**
   * Every note that matches the search and the tag is shown in exactly one of the
   * two views: the all-notes view and the archived view split those notes between them.
   */
  lemma ViewsPartition(notes: seq<Note>, q: string, tagId: Option<string>, epoch: string -> int)
    ensures var all := FilterNotes(notes, q, tagId, Navigation.All, epoch);
            var archived := FilterNotes(notes, q, tagId, Navigation.Archived, epoch);
            forall n :: multiset(all)[n] + multiset(archived)[n] ==
              if MatchesSearch(n, q) && MatchesTag(n, tagId) then multiset(notes)[n] else 0
  {
  }

  /** With no search text and no tag, a view shows all of its notes. */
  lemma NoFilterShowsWholeView(notes: seq<Note>, view: Navigation.View, epoch: string -> int)
    ensures var shown := FilterNotes(notes, "", None, view, epoch);
            forall n :: multiset(shown)[n] == if MatchesView(n, view) then multiset(notes)[n] else 0
  {
    forall n {
      EmptySearchMatchesAll(n);
    }
  }

  /**
   * A note just created is listed only in the all-notes view with no tag selected
   * and no search text; anywhere else it is open but not in the list.
   */
  lemma NewNoteListed(notes: seq<Note>, id: string, now: string, q: string, tagId: Option<string>,
                      view: Navigation.View, epoch: string -> int)
    ensures var n := NoteService.CreateDefaultNote(id, now);
            n in FilterNotes([n] + notes, q, tagId, view, epoch) <==>
              q == "" && !Truthy(tagId) && view == Navigation.All
  {
    var n := NoteService.CreateDefaultNote(id, now);
    var r := FilterNotes([n] + notes, q, tagId, view, epoch);
    assert multiset([n] + notes)[n] > 0;
    assert n in r <==> multiset(r)[n] > 0;
    assert Lower(n.title) == "";
    assert MatchesSearch(n, q) <==> Lower(q) == "";
  }
}

=== FILE: navigation.dfy ===
/**
 * The URL is the only store of UI state. The path gives the view, the selected
 * tag, the open note and whether the delete dialog is open; the `q` query
 * parameter gives the search text. Setters navigate to a newly built location.
 */
module Navigation {
  import opened Wrappers
  import opened Seqs
  import opened Text

  datatype View = All | Archived

  /** One `name=value` pair of the query string, already decoded. */
  datatype Param = Param(name: string, value: string)

  /** The router location: its path and the pairs of its query string, in order. */
  datatype Location = Location(pathname: string, params: seq<Param>)

  /** What the hook derives from the path. */
  datatype NavState = NavState(
    view: View,
    selectedTagId: Option<string>,
    activeNoteId: Option<string>,
    isDeleting: bool)

  // ---------------------------------------------------------------------------
  // Path segments

  /** `s.split('/')`: the pieces between slashes, empty ones included. */
  function Split(s: string): (r: seq<string>)
    ensures |r| >= 1
    ensures forall p :: p in r ==> '/' !in p
  {
    if s == [] then [""]
    else if s[0] == '/' then [""] + Split(s[1..])
    else
      var rest := Split(s[1..]);
      [[s[0]] + rest[0]] + rest[1..]
  }

  const NonEmpty: string -> bool := (p: string) => p != ""

  /** A path segment: not empty and free of slashes. */
  predicate IsPiece(s: string) {
    s != "" && '/' !in s
  }

  /** `pathname.split('/').filter(Boolean)`. */
  function Segments(pathname: string): (r: seq<string>)
    ensures forall p :: p in r ==> IsPiece(p)
  {
    Filter(Split(pathname), NonEmpty)
  }

  /** `segments[i] || null`. */
  function At(segs: seq<string>, i: nat): (r: Option<string>)
    ensures r.Some? <==> i < |segs| && segs[i] != ""
    ensures r.Some? ==> r.value == segs[i]
  {
    if i < |segs| && segs[i] != "" then Some(segs[i]) else None
  }

  /**
   * The state the segments stand for. A last segment `delete` opens the delete
   * dialog and is dropped first; then `archived/<note>`, `tags/<tag>/<note>` or
   * `<note>`, each part optional.
   */
  function ParseSegments(segs: seq<string>): (st: NavState)
    requires forall p :: p in segs ==> IsPiece(p)
    ensures st.view == Archived ==> st.selectedTagId.None?
    ensures st.selectedTagId.Some? ==> IsPiece(st.selectedTagId.value)
    ensures st.activeNoteId.Some? ==> IsPiece(st.activeNoteId.value)
    ensures st.view == All && st.selectedTagId.None? && st.activeNoteId.Some? ==>
      st.activeNoteId.value != "archived" && st.activeNoteId.value != "tags"
  {
    var isDeleting := |segs| > 0 && segs[|segs| - 1] == "delete";
    var rest := if isDeleting then segs[..|segs| - 1] else segs;
    assert forall p :: p in rest ==> p in segs;
    assert At(rest, 1).None? ==> At(rest, 2).None? by {
      if |rest| >= 2 {
        assert rest[1] in rest;
        assert IsPiece(rest[1]);
      }
    }
    if |rest| > 0 && rest[0] == "archived" then
      NavState(Archived, None, At(rest, 1), isDeleting)
    else if |rest| > 0 && rest[0] == "tags" then
      NavState(All, At(rest, 1), At(rest, 2), isDeleting)
    else
      NavState(All, None, At(rest, 0), isDeleting)
  }

  /**
   * The state a path stands for. Every id it yields is a non-empty piece without
   * slashes, the archived view carries no tag, and a note at the root is never
   * named `archived` or `tags`.
   */
  function Parse(pathname: string): (st: NavState)
    ensures st.view == Archived ==> st.selectedTagId.None?
    ensures st.selectedTagId.Some? ==> IsPiece(st.selectedTagId.value)
    ensures st.activeNoteId.Some? ==> IsPiece(st.activeNoteId.value)
    ensures st.view == All && st.selectedTagId.None? && st.activeNoteId.Some? ==>
      st.activeNoteId.value != "archived" && st.activeNoteId.value != "tags"
  {
    ParseSegments(Segments(pathname))
  }

  // ---------------------------------------------------------------------------
  // Query parameters (URLSearchParams)

  /** `params.get(name)`: the value of the first pair with that name. */
  function Get(params: seq<Param>, name: string): (r: Option<string>)
    ensures r.Some? ==> Param(name, r.value) in params
    ensures r.Some? ==> exists k :: (0 <= k < |params| && params[k] == Param(name, r.value) &&
                                     forall j :: 0 <= j < k ==> params[j].name != name)
    ensures r.None? <==> forall p :: p in params ==> p.name != name
  {
    if params == [] then None
    else if params[0].name == name then Some(params[0].value)
    else Get(params[1..], name)
  }

  /** `searchParams.get('q') || ''`. */
  function QueryOf(params: seq<Param>): string {
    Get(params, "q").GetOr("")
  }

  function OtherName(name: string): Param -> bool {
    (p: Param) => p.name != name
  }

  /** `params.delete(name)`: every pair with that name goes. */
  function DeleteParam(params: seq<Param>, name: string): (r: seq<Param>)
    ensures forall p :: p in r <==> p in params && p.name != name
  {
    Filter(params, OtherName(name))
  }

  /**
   * `params.set(name, value)`: the first pair with that name takes the value and
   * the later ones go; with no such pair, the pair is appended.
   */
  function SetParam(params: seq<Param>, name: string, value: string): (r: seq<Param>)
    ensures Param(name, value) in r
    ensures forall p :: p in r && p.name != name ==> p in params
    ensures forall p :: p in params && p.name != name ==> p in r
  {
    if params == [] then [Param(name, value)]
    else if params[0].name == name then [Param(name, value)] + DeleteParam(params[1..], name)
    else [params[0]] + SetParam(params[1..], name, value)
  }

  /** The query `setSearchQuery(q)` navigates to: `q` set when non-empty, deleted otherwise. */
  function WithQuery(params: seq<Param>, q: string): seq<Param> {
    if q != "" then SetParam(params, "q", q) else DeleteParam(params, "q")
  }

  /** After `set`, `get` gives the new value; other names are untouched. */
  lemma {:induction false} GetAfterSet(params: seq<Param>, name: string, value: string, other: string)
    ensures Get(SetParam(params, name, value), name) == Some(value)
    ensures other != name ==> Get(SetParam(params, name, value), other) == Get(params, other)
  {
    if params != [] && params[0].name != name {
      GetAfterSet(params[1..], name, value, other);
    } else if params != [] && other != name {
      GetAfterDelete(params[1..], name, other);
    }
  }

  /** After `delete`, `get` finds nothing; other names are untouched. */
  lemma {:induction false} GetAfterDelete(params: seq<Param>, name: string, other: string)
    ensures Get(DeleteParam(params, name), name).None?
    ensures other != name ==> Get(DeleteParam(params, name), other) == Get(params, other)
  {
    if params != [] {
      GetAfterDelete(params[1..], name, other);
      var rest := DeleteParam(params[1..], name);
      if params[0].name != name {
        assert DeleteParam(params, name) == [params[0]] + rest;
        assert ([params[0]] + rest)[1..] == rest;
      } else {
        assert DeleteParam(params, name) == [] + rest == rest;
      }
    }
  }

  /** The search text reads back as written by `setSearchQuery`, and no other parameter changes. */
  lemma SearchQueryRoundTrip(params: seq<Param>, q: string, other: string)
    ensures QueryOf(WithQuery(params, q)) == q
    ensures other != "q" ==> Get(WithQuery(params, q), other) == Get(params, other)
  {
    if q != "" {
      GetAfterSet(params, "q", q, other);
    } else {
      GetAfterDelete(params, "q", other);
    }
  }

  // ---------------------------------------------------------------------------
  // Building paths

  /**
   * `getPathForNote(id, action)` before the query string is appended: the current
   * archived or tag context, then the note, then `/delete` when asked for and
   * there is a note.
   */
  function PathForNote(st: NavState, id: Option<string>, deleteAction: bool): string {
    var base :=
      if st.view == Archived then
        (if Truthy(id) then "/archived/" + id.value else "/archived")
      else if Truthy(st.selectedTagId) then
        (if Truthy(id) then "/tags/" + st.selectedTagId.value + "/" + id.value
         else "/tags/" + st.selectedTagId.value)
      else
        (if Truthy(id) then "/" + id.value else "/");
    if deleteAction && Truthy(id) then base + "/delete" else base
  }

  /** `getPathForNote` as a location: the new path with the current query string unchanged. */
  function GetPathForNote(loc: Location, id: Option<string>, deleteAction: bool): (r: Location)
    ensures r.params == loc.params
  {
    Location(PathForNote(Parse(loc.pathname), id, deleteAction), loc.params)
  }

  /** `/` followed by each piece, each after a slash. */
  function JoinPath(ps: seq<string>): string {
    if ps == [] then "" else "/" + ps[0] + JoinPath(ps[1..])
  }

  lemma {:induction false} JoinPathConcat(ps: seq<string>, qs: seq<string>)
    ensures JoinPath(ps + qs) == JoinPath(ps) + JoinPath(qs)
  {
    if ps == [] {
      assert ps + qs == qs;
    } else {
      assert (ps + qs)[1..] == ps[1..] + qs;
      JoinPathConcat(ps[1..], qs);
    }
  }

  lemma {:induction false} SplitPrefix(p: string, s: string)
    requires '/' !in p
    ensures Split(p + s) == [p + Split(s)[0]] + Split(s)[1..]
  {
    if p == [] {
      assert p + s == s;
      assert p + Split(s)[0] == Split(s)[0];
    } else {
      assert (p + s)[0] == p[0];
      assert (p + s)[1..] == p[1..] + s;
      SplitPrefix(p[1..], s);
      assert [p[0]] + (p[1..] + Split(s)[0]) == p + Split(s)[0];
    }
  }

  lemma {:induction false} SplitJoin(ps: seq<string>)
    requires forall p :: p in ps ==> '/' !in p
    ensures Split(JoinPath(ps)) == [""] + ps
  {
    if ps != [] {
      var rest := JoinPath(ps[1..]);
      SplitJoin(ps[1..]);
      assert "/" + ps[0] + rest == ['/'] + (ps[0] + rest);
      SplitPrefix(ps[0], rest);
      assert ps[0] + "" == ps[0];
      assert ps == [ps[0]] + ps[1..];
    }
  }

  /** Joining pieces with slashes and splitting the result gives the pieces back. */
  lemma SegmentsOfJoin(ps: seq<string>)
    requires forall p :: p in ps ==> IsPiece(p)
    ensures Segments(JoinPath(ps)) == ps
  {
    SplitJoin(ps);
    FilterConcat([""], ps, NonEmpty);
    FilterKeepsAll(ps, NonEmpty);
  }

  /** The root path has no segments. */
  lemma SegmentsOfRoot()
    ensures Segments("/") == []
  {
    assert Split("/") == [""] + Split("");
    FilterConcat([""], [""], NonEmpty);
  }

  /** The pieces `PathForNote` lays out: the context, then the note and the delete marker. */
  function PathParts(st: NavState, id: Option<string>, deleteAction: bool): seq<string> {
    (if st.view == Archived then ["archived"]
     else if Truthy(st.selectedTagId) then ["tags", st.selectedTagId.value]
     else [])
    + (if Truthy(id) then [id.value] else [])
    + (if deleteAction && Truthy(id) then ["delete"] else [])
  }

  lemma JoinCons(a: string, ps: seq<string>)
    ensures JoinPath([a] + ps) == "/" + a + JoinPath(ps)
  {
    assert ([a] + ps)[1..] == ps;
  }

  /** The path of the context, without the note: what `getPathForNote(null)` builds. */
  lemma ContextPathIsJoin(st: NavState)
    ensures var ctx := PathParts(st, None, false);
            PathForNote(st, None, false) == if ctx == [] then "/" else JoinPath(ctx)
  {
    if st.view == Archived {
      JoinCons("archived", []);
    } else if Truthy(st.selectedTagId) {
      var t := st.selectedTagId.value;
      JoinCons(t, []);
      JoinCons("tags", [t]);
      assert "/" + "tags" + ("/" + t) == "/tags/" + t;
    }
  }

  /** With a note, the path is the context's pieces and the note's, joined. */
  lemma NotePathIsJoin(st: NavState, id: string)
    requires id != ""
    ensures PathForNote(st, Some(id), false) == JoinPath(PathParts(st, Some(id), false))
  {
    var ctx := PathParts(st, None, false);
    assert PathParts(st, Some(id), false) == ctx + [id];
    JoinPathConcat(ctx, [id]);
    JoinCons(id, []);
    ContextPathIsJoin(st);
    if st.view == Archived {
      assert "/archived" + ("/" + id) == "/archived/" + id;
    } else if Truthy(st.selectedTagId) {
      var t := st.selectedTagId.value;
      assert "/tags/" + t + ("/" + id) == "/tags/" + t + "/" + id;
    } else {
      assert ctx == [];
      assert [] + [id] == [id];
    }
  }

  /**
   * `getPathForNote` lays out `PathParts` joined by slashes (the bare `/` when
   * there are none).
   */
  lemma PathForNoteIsJoin(st: NavState, id: Option<string>, deleteAction: bool)
    ensures var path := PathForNote(st, id, deleteAction);
            var parts := PathParts(st, id, deleteAction);
            path == (if parts == [] then "/" else JoinPath(parts))
  {
    ContextPathIsJoin(st);
    if Truthy(id) {
      var v := id.value;
      NotePathIsJoin(st, v);
      var noteParts := PathParts(st, id, false);
      assert PathParts(st, id, deleteAction) ==
        noteParts + (if deleteAction then ["delete"] else []);
      if deleteAction {
        JoinPathConcat(noteParts, ["delete"]);
        JoinCons("delete", []);
        assert PathForNote(st, id, deleteAction) == PathForNote(st, id, false) + "/delete";
      } else {
        assert noteParts + [] == noteParts;
      }
    } else {
      assert PathParts(st, id, deleteAction) == PathParts(st, None, false);
    }
  }

  /** A piece that is not the delete marker. */
  predicate IsSegment(s: string) {
    IsPiece(s) && s != "delete"
  }

  /**
   * The ids a note path is built from survive parsing: the tag and note ids are
   * segments, the archived view has no tag, and a note at the root is not named
   * like a view.
   */
  predicate Addressable(st: NavState, id: Option<string>) {
    && (st.view == Archived ==> st.selectedTagId.None?)
    && (st.selectedTagId.Some? ==> IsSegment(st.selectedTagId.value))
    && (id.Some? ==> IsSegment(id.value))
    && (id.Some? && st.view == All && st.selectedTagId.None? ==> id.value != "archived" && id.value != "tags")
  }

  /** The segments of a built path are the pieces it was built from. */
  lemma SegmentsOfPath(st: NavState, id: Option<string>, deleteAction: bool)
    requires st.selectedTagId.Some? ==> '/' !in st.selectedTagId.value
    requires id.Some? ==> '/' !in id.value
    ensures Segments(PathForNote(st, id, deleteAction)) == PathParts(st, id, deleteAction)
  {
    var parts := PathParts(st, id, deleteAction);
    PathForNoteIsJoin(st, id, deleteAction);
    SegmentsOfJoin(parts);
    if parts == [] {
      SegmentsOfRoot();
    }
  }

  /** Parsing the pieces of a note path gives back the state they were laid out from. */
  lemma ParsePathParts(st: NavState, id: Option<string>, deleteAction: bool)
    requires Addressable(st, id)
    ensures forall p :: p in PathParts(st, id, deleteAction) ==> IsPiece(p)
    ensures ParseSegments(PathParts(st, id, deleteAction)) ==
      NavState(st.view, st.selectedTagId, id, deleteAction && id.Some?)
  {
    var parts := PathParts(st, id, deleteAction);
    var kept := PathParts(st, id, false);
    if deleteAction && id.Some? {
      assert parts == kept + ["delete"];
      assert parts[..|parts| - 1] == kept;
    } else {
      assert parts == kept;
    }
  }

  /**
   * Parsing the path built for note `id` gives back the same view and tag, `id`
   * as the open note, and the delete dialog open exactly when it was asked for
   * with a note.
   */
  lemma RoundTrip(st: NavState, id: Option<string>, deleteAction: bool)
    requires Addressable(st, id)
    ensures Parse(PathForNote(st, id, deleteAction)) ==
      NavState(st.view, st.selectedTagId, id, deleteAction && id.Some?)
  {
    SegmentsOfPath(st, id, deleteAction);
    ParsePathParts(st, id, deleteAction);
  }

  /**
   * Every state read off a path can be written back, as long as neither its tag
   * nor its note is literally `delete`.
   */
  lemma ParsedIsAddressable(pathname: string, id: Option<string>)
    requires Parse(pathname).selectedTagId != Some("delete")
    requires id.Some? ==> IsSegment(id.value)
    requires id.Some? && Parse(pathname).view == All && Parse(pathname).selectedTagId.None? ==>
      id.value != "archived" && id.value != "tags"
    ensures Addressable(Parse(pathname), id)
  {
  }

  /** The root paths: the note list, an open note, and the delete dialog over it. */
  lemma ParsesRootPaths()
    ensures Parse("/") == NavState(All, None, None, false)
    ensures Parse("/note-1") == NavState(All, None, Some("note-1"), false)
    ensures Parse("/note-1/delete") == NavState(All, None, Some("note-1"), true)
  {
    var root := NavState(All, None, None, false);
    assert PathForNote(root, None, false) == "/";
    RoundTrip(root, None, false);
    assert PathForNote(root, Some("note-1"), false) == "/note-1";
    RoundTrip(root, Some("note-1"), false);
    assert PathForNote(root, Some("note-1"), true) == "/note-1/delete";
    RoundTrip(root, Some("note-1"), true);
  }

  /** The archived paths: the archived list and an archived note. */
  lemma ParsesArchivedPaths()
    ensures Parse("/archived") == NavState(Archived, None, None, false)
    ensures Parse("/archived/note-2") == NavState(Archived, None, Some("note-2"), false)
  {
    var archived := NavState(Archived, None, None, false);
    assert PathForNote(archived, None, false) == "/archived";
    RoundTrip(archived, None, false);
    assert PathForNote(archived, Some("note-2"), false) == "/archived/note-2";
    RoundTrip(archived, Some("note-2"), false);
  }

  /** The tag paths: a tag's list and a note opened from it. */
  lemma ParsesTagPaths()
    ensures Parse("/tags/tag-1") == NavState(All, Some("tag-1"), None, false)
    ensures Parse("/tags/tag-1/note-3") == NavState(All, Some("tag-1"), Some("note-3"), false)
  {
    var tagged := NavState(All, Some("tag-1"), None, false);
    assert PathForNote(tagged, None, false) == "/tags/tag-1";
    RoundTrip(tagged, None, false);
    assert PathForNote(tagged, Some("note-3"), false) == "/tags/tag-1/note-3";
    RoundTrip(tagged, Some("note-3"), false);
  }

  // ---------------------------------------------------------------------------
  // The hook

  /** The router as `useNotesNavigation` sees it: the current location, replaced on every navigation. */
  class Navigator {
    var location: Location

    constructor (initial: Location)
      ensures location == initial
    {
      location := initial;
    }

    /**
     * `view`, `selectedTagId`, `activeNoteId` and `isDeleting`, read off the path.
     * Unless a tag or note id is literally `delete`, the open note can be written
     * back into a path of the same context.
     */
    function State(): (st: NavState)
      reads this
      ensures st.view == Archived ==> st.selectedTagId.None?
      ensures st.selectedTagId != Some("delete") && st.activeNoteId != Some("delete") ==>
        Addressable(st, st.activeNoteId)
    {
      Parse(location.pathname)
    }

    /** `searchQuery`: the first `q` parameter, or `''` when there is none. */
    function SearchQuery(): (q: string)
      reads this
      ensures Get(location.params, "q").Some? ==> q == Get(location.params, "q").value
      ensures Get(location.params, "q").None? ==> q == ""
    {
      QueryOf(location.params)
    }

    /** `setActiveNoteId(id)`: the path for `id` in the current context, query kept. */
    method SetActiveNoteId(id: Option<string>)
      modifies this
      ensures location == GetPathForNote(old(location), id, false)
      ensures Addressable(old(State()), id) ==>
        State() == old(State()).(activeNoteId := id, isDeleting := false)
      ensures SearchQuery() == old(SearchQuery())
    {
      var st := State();
      location := GetPathForNote(location, id, false);
      if Addressable(st, id) {
        RoundTrip(st, id, false);
      }
    }

    /** `openDeleteModal(id)`: the path for `id` with `/delete` appended, query kept. */
    method OpenDeleteModal(id: string)
      modifies this
      ensures location == GetPathForNote(old(location), Some(id), true)
      ensures Addressable(old(State()), Some(id)) ==>
        State() == old(State()).(activeNoteId := Some(id), isDeleting := true)
      ensures SearchQuery() == old(SearchQuery())
    {
      var st := State();
      location := GetPathForNote(location, Some(id), true);
      if Addressable(st, Some(id)) {
        RoundTrip(st, Some(id), true);
      }
    }

    /** `closeDeleteModal()`: the same note's path without the `/delete` suffix, query kept. */
    method CloseDeleteModal()
      modifies this
      ensures location == GetPathForNote(old(location), old(State()).activeNoteId, false)
      ensures Addressable(old(State()), old(State()).activeNoteId) ==>
        State() == old(State()).(isDeleting := false)
      ensures SearchQuery() == old(SearchQuery())
    {
      var st := State();
      location := GetPathForNote(location, st.activeNoteId, false);
      if Addressable(st, st.activeNoteId) {
        RoundTrip(st, st.activeNoteId, false);
      }
    }

    /** `setSearchQuery(q)`: same path; `q` set when non-empty, removed otherwise. */
    method SetSearchQuery(q: string)
      modifies this
      ensures location == Location(old(location).pathname, WithQuery(old(location).params, q))
      ensures SearchQuery() == q && State() == old(State())
    {
      location := Location(location.pathname, WithQuery(location.params, q));
      SearchQueryRoundTrip(old(location).params, q, "q");
    }

    /** `setSelectedTagId(id)`: the tag's list (or the root) with no note open, query kept. */
    method SetSelectedTagId(id: Option<string>)
      modifies this
      ensures location == Location(if Truthy(id) then "/tags/" + id.value else "/", old(location).params)
      ensures Truthy(id) && IsSegment(id.value) ==> State() == NavState(All, id, None, false)
      ensures !Truthy(id) ==> State() == NavState(All, None, None, false)
      ensures SearchQuery() == old(SearchQuery())
    {
      var st := NavState(All, if Truthy(id) then id else None, None, false);
      assert PathForNote(st, None, false) == if Truthy(id) then "/tags/" + id.value else "/";
      location := Location(PathForNote(st, None, false), location.params);
      if Truthy(id) && IsSegment(id.value) {
        RoundTrip(st, None, false);
      } else if !Truthy(id) {
        RoundTrip(st, None, false);
      }
    }

    /** `setView(v)`: the view's list with no tag and no note, query kept. */
    method SetView(v: View)
      modifies this
      ensures location == Location(if v == Archived then "/archived" else "/", old(location).params)
      ensures State() == NavState(v, None, None, false)
      ensures SearchQuery() == old(SearchQuery())
    {
      var st := NavState(v, None, None, false);
      location := Location(PathForNote(st, None, false), location.params);
      RoundTrip(st, None, false);
    }
  }
}

=== FILE: note_editor.dfy ===
/**
 * The editor of the open note. It keeps a snapshot of the note as it was when it
 * was opened, so that Cancel can undo the edits (or throw a brand new note away);
 * every edit is saved as it happens.
 */
module NoteEditor {
  import opened Wrappers
  import opened Seqs
  import opened Text
  import opened Types
  import Navigation
  import Manager
  import NoteService

  /** `notes.find(n => n.id === activeNoteId)`: nothing when no note is open or none has that id. */
  function FindNote(notes: seq<Note>, id: Option<string>): (r: Option<Note>)
    ensures r.Some? ==> id.Some? && r.value in notes && r.value.id == id.value
    ensures r.None? <==> id.None? || forall n :: n in notes ==> n.id != id.value
  {
    if id.None? || notes == [] then None
    else if notes[0].id == id.value then Some(notes[0])
    else FindNote(notes[1..], id)
  }

  /** After an update that keeps ids, the note found is the merge of the one found before. */
  lemma {:induction false} FindAfterUpdate(notes: seq<Note>, id: string, u: Patch, now: string)
    requires u.id.None?
    ensures var before := FindNote(notes, Some(id));
            FindNote(NoteService.Update(notes, id, u, now), Some(id)) ==
              if before.Some? then Some(NoteService.Merge(before.value, u, now)) else None
  {
    var after := NoteService.Update(notes, id, u, now);
    if notes != [] {
      assert after[1..] == NoteService.Update(notes[1..], id, u, now);
      FindAfterUpdate(notes[1..], id, u, now);
    }
  }

  /** What the editor remembers of the note it opened. */
  datatype Snapshot = Snapshot(title: string, content: string, lastEdited: string)

  function SnapshotOf(n: Note): Snapshot {
    Snapshot(n.title, n.content, n.lastEdited)
  }

  /** The update Cancel writes back: the remembered title, content and timestamp. */
  function RevertPatch(s: Snapshot): (u: Patch)
    ensures u.id.None? && u.tags.None? && u.isArchived.None?
  {
    EmptyPatch.(title := Some(s.title), content := Some(s.content), lastEdited := Some(s.lastEdited))
  }

  /**
   * Cancel undoes edits: whatever title and content edits were made since the
   * note was opened, reverting to its snapshot gives back the note as it was,
   * timestamp included, provided it had one. Tag changes are not undone.
   */
  lemma RevertRestores(n: Note, edited: Note, now: string)
    requires edited.id == n.id && edited.tags == n.tags && edited.isArchived == n.isArchived
    requires n.lastEdited != ""
    ensures NoteService.Merge(edited, RevertPatch(SnapshotOf(n)), now) == n
  {
  }

  /** Cancel on a note whose snapshot had no timestamp stamps the current time instead. */
  lemma RevertWithoutTimestamp(n: Note, edited: Note, now: string)
    requires n.lastEdited == ""
    ensures NoteService.Merge(edited, RevertPatch(SnapshotOf(n)), now).lastEdited == now
  {
  }

  /** The note was opened empty and still has no tags: Cancel deletes it instead of reverting. */
  predicate IsNewNote(s: Snapshot, current: Note) {
    s.title == "" && s.content == "" && current.tags == []
  }

  /** A note fresh from `createNote` counts as new when it is cancelled with no tags added. */
  lemma CreatedNoteIsNew(id: string, now: string, current: Note)
    requires current.tags == []
    ensures IsNewNote(SnapshotOf(NoteService.CreateDefaultNote(id, now)), current)
  {
  }

  /** `[...tags, id]` unless the note already has `id`. */
  function AttachTag(tags: seq<string>, id: string): (r: seq<string>)
    ensures id in r
    ensures forall t :: t in r <==> t in tags || t == id
    ensures id in tags ==> r == tags
    ensures id !in tags ==> r == tags + [id]
  {
    if id in tags then tags else tags + [id]
  }

  predicate NoDuplicates(tags: seq<string>) {
    forall i, j :: 0 <= i < j < |tags| ==> tags[i] != tags[j]
  }

  /** Attaching a tag never gives a note the same tag twice. */
  lemma AttachTagKeepsUnique(tags: seq<string>, id: string)
    requires NoDuplicates(tags)
    ensures NoDuplicates(AttachTag(tags, id))
  {
    if id !in tags {
      var r := AttachTag(tags, id);
      forall i, j | 0 <= i < j < |r| ensures r[i] != r[j] {
        if j == |tags| {
          assert r[i] == tags[i];
        }
      }
    }
  }

  /** `note.tags.filter(id => id !== tagId)`. */
  function DetachTag(tags: seq<string>, id: string): (r: seq<string>)
    ensures forall t :: t in r <==> t in tags && t != id
    ensures forall t :: multiset(r)[t] == if t != id then multiset(tags)[t] else 0
    ensures IsSubsequence(r, tags)
  {
    var r := Filter(tags, NoteService.OtherTag(id));
    assert forall t :: multiset(r)[t] == if t != id then multiset(tags)[t] else 0 by {
      forall t ensures multiset(r)[t] == if t != id then multiset(tags)[t] else 0 {
        FilterMultiset(tags, NoteService.OtherTag(id), t);
      }
    }
    r
  }

  /** Detaching a tag undoes attaching it, when the note did not have it before. */
  lemma {:induction false} DetachUndoesAttach(tags: seq<string>, id: string)
    requires id !in tags
    ensures DetachTag(AttachTag(tags, id), id) == tags
  {
    FilterConcat(tags, [id], NoteService.OtherTag(id));
    FilterKeepsAll(tags, NoteService.OtherTag(id));
    assert Filter([id], NoteService.OtherTag(id)) == [];
  }

  class Editor {
    const data: Manager.NotesManager
    const ui: Navigation.Navigator
    /** `initialStateRef`. */
    var initialState: Option<Snapshot>
    /** `lastNoteIdRef`. */
    var lastNoteId: Option<string>

    constructor (data: Manager.NotesManager, ui: Navigation.Navigator)
      ensures this.data == data && this.ui == ui
      ensures initialState.None? && lastNoteId.None?
    {
      this.data := data;
      this.ui := ui;
      initialState := None;
      lastNoteId := None;
    }

    /** `note`: the open note, if it exists. */
    function Current(): Option<Note>
      reads data, ui
    {
      FindNote(data.notes, ui.State().activeNoteId)
    }

    /**
     * The snapshot effect: on opening a different note that exists, remember it;
     * with no note open, forget; otherwise keep the snapshot taken when the note
     * was opened, however it has been edited since.
     */
    method Sync()
      modifies this
      ensures var active := ui.State().activeNoteId;
              if Truthy(active) && Current().Some? && active != old(lastNoteId) then
                initialState == Some(SnapshotOf(Current().value)) && lastNoteId == active
              else if !Truthy(active) then
                initialState.None? && lastNoteId.None?
              else
                initialState == old(initialState) && lastNoteId == old(lastNoteId)
    {
      var active := ui.State().activeNoteId;
      var note := Current();
      if Truthy(active) && note.Some? && active != lastNoteId {
        initialState := Some(SnapshotOf(note.value));
        lastNoteId := active;
      } else if !Truthy(active) {
        initialState := None;
        lastNoteId := None;
      }
    }

    /** `handleSave()`: edits are already stored, so only the note closes. */
    method HandleSave()
      modifies ui
      ensures ui.location == Navigation.GetPathForNote(old(ui.location), None, false)
      ensures Navigation.Addressable(old(ui.State()), None) ==> Current().None?
    {
      ui.SetActiveNoteId(None);
    }

    /**
     * `handleCancel()`: a note opened empty and still untagged is deleted; any
     * other note with a snapshot gets its title, content and timestamp back.
     * Either way the note closes.
     */
    method HandleCancel(now: string)
      requires data.Valid()
      modifies data, ui
      ensures data.Valid() && data.tags == old(data.tags)
      ensures ui.location == Navigation.GetPathForNote(old(ui.location), None, false)
      ensures Navigation.Addressable(old(ui.State()), None) ==> Current().None?
      ensures old(Current()).None? || initialState.None? ==> data.notes == old(data.notes)
      ensures old(Current()).Some? && initialState.Some? && IsNewNote(initialState.value, old(Current()).value) ==>
        data.notes == NoteService.Delete(old(data.notes), old(Current()).value.id) &&
        forall n :: n in data.notes ==> n.id != old(Current()).value.id
      ensures old(Current()).Some? && initialState.Some? && !IsNewNote(initialState.value, old(Current()).value) ==>
        data.notes == NoteService.Update(old(data.notes), old(Current()).value.id, RevertPatch(initialState.value), now)
    {
      var note := Current();
      if note.Some? && initialState.Some? {
        if IsNewNote(initialState.value, note.value) {
          data.DeleteNote(note.value.id);
        } else {
          data.UpdateNote(note.value.id, RevertPatch(initialState.value), now);
        }
      }
      ui.SetActiveNoteId(None);
    }

    /** `addExistingTag(tagId)`: attaches the tag to the open note unless it already has it. */
    method AddExistingTag(tagId: string, now: string)
      requires data.Valid()
      modifies data
      ensures data.Valid() && data.tags == old(data.tags)
      ensures old(Current()).None? || tagId in old(Current()).value.tags ==> data.notes == old(data.notes)
      ensures old(Current()).Some? && tagId !in old(Current()).value.tags ==>
        data.notes == NoteService.Update(old(data.notes), old(Current()).value.id,
                                         EmptyPatch.(tags := Some(AttachTag(old(Current()).value.tags, tagId))), now)
      ensures old(Current()).Some? ==> Current().Some? && tagId in Current().value.tags
    {
      var note := Current();
      if note.Some? && tagId !in note.value.tags {
        var u := EmptyPatch.(tags := Some(AttachTag(note.value.tags, tagId)));
        FindAfterUpdate(data.notes, note.value.id, u, now);
        data.UpdateNote(note.value.id, u, now);
      }
    }

    /**
     * `handleAddTag(tagName)`: finds or creates the tag by name, then attaches it
     * to the open note unless it already has it. Without an open note nothing
     * happens, not even the tag's creation.
     */
    method HandleAddTag(tagName: string, freshId: string, now: string) returns (tag: Option<Tag>)
      requires data.Valid()
      requires forall g :: g in data.tags ==> g.id != freshId
      modifies data
      ensures data.Valid()
      ensures old(Current()).None? ==> tag.None? && data.notes == old(data.notes) && data.tags == old(data.tags)
      ensures old(Current()).Some? ==>
        tag.Some? && Manager.Added(tag.value, data.tags) == Manager.AddTagTo(old(data.tags), tagName, freshId)
      ensures old(Current()).Some? ==> Current().Some? && tag.value.id in Current().value.tags
      ensures old(Current()).Some? ==>
        data.notes == if tag.value.id in old(Current()).value.tags then old(data.notes)
                      else NoteService.Update(old(data.notes), old(Current()).value.id,
                             EmptyPatch.(tags := Some(AttachTag(old(Current()).value.tags, tag.value.id))), now)
    {
      var note := Current();
      if note.None? {
        return None;
      }
      var t := data.AddTag(tagName, freshId);
      tag := Some(t);
      if t.id !in note.value.tags {
        var u := EmptyPatch.(tags := Some(AttachTag(note.value.tags, t.id)));
        FindAfterUpdate(data.notes, note.value.id, u, now);
        data.UpdateNote(note.value.id, u, now);
      }
    }

    /** `removeTag(tagId)`: the open note keeps every other tag. */
    method RemoveTag(tagId: string, now: string)
      requires data.Valid()
      modifies data
      ensures data.Valid() && data.tags == old(data.tags)
      ensures old(Current()).None? ==> data.notes == old(data.notes)
      ensures old(Current()).Some? ==>
        data.notes == NoteService.Update(old(data.notes), old(Current()).value.id,
                                         EmptyPatch.(tags := Some(DetachTag(old(Current()).value.tags, tagId))), now)
      ensures old(Current()).Some? ==> Current().Some? && tagId !in Current().value.tags
    {
      var note := Current();
      if note.Some? {
        var u := EmptyPatch.(tags := Some(DetachTag(note.value.tags, tagId)));
        FindAfterUpdate(data.notes, note.value.id, u, now);
        data.UpdateNote(note.value.id, u, now);
      }
    }

    /** `updateTitle(title)`: the open note gets the title and a fresh timestamp. */
    method UpdateTitle(title: string, now: string)
      requires data.Valid()
      modifies data
      ensures data.Valid() && data.tags == old(data.tags)
      ensures old(Current()).None? ==> data.notes == old(data.notes)
      ensures old(Current()).Some? ==>
        data.notes == NoteService.Update(old(data.notes), old(Current()).value.id,
                                         EmptyPatch.(title := Some(title)), now)
      ensures old(Current()).Some? ==>
        Current() == Some(old(Current()).value.(title := title, lastEdited := now))
    {
      var note := Current();
      if note.Some? {
        var u := EmptyPatch.(title := Some(title));
        FindAfterUpdate(data.notes, note.value.id, u, now);
        data.UpdateNote(note.value.id, u, now);
      }
    }

    /** `updateContent(content)`: the open note gets the content and a fresh timestamp. */
    method UpdateContent(content: string, now: string)
      requires data.Valid()
      modifies data
      ensures data.Valid() && data.tags == old(data.tags)
      ensures old(Current()).None? ==> data.notes == old(data.notes)
      ensures old(Current()).Some? ==>
        data.notes == NoteService.Update(old(data.notes), old(Current()).value.id,
                                         EmptyPatch.(content := Some(content)), now)
      ensures old(Current()).Some? ==>
        Current() == Some(old(Current()).value.(content := content, lastEdited := now))
    {
      var note := Current();
      if note.Some? {
        var u := EmptyPatch.(content := Some(content));
        FindAfterUpdate(data.notes, note.value.id, u, now);
        data.UpdateNote(note.value.id, u, now);
      }
    }
  }
}

=== FILE: note_service.dfy ===
/**
 * The stateless operations on a list of notes: build a default note, merge an
 * update into the notes with a given id, delete by id, and strip a tag id from
 * every note. `crypto.randomUUID()` and `new Date().toISOString()` are passed in
 * as `id` and `now`.
 */
module NoteService {
  import opened Wrappers
  import opened Seqs
  import opened Text
  import opened Types

  /** A note with nothing in it yet, as a brand new note is. */
  predicate IsBlank(n: Note) {
    n.title == "" && n.content == "" && n.tags == [] && !n.isArchived
  }

  /** A new note: blank, not archived, stamped with the current time. */
  function CreateDefaultNote(id: string, now: string): (n: Note)
    ensures n.id == id && n.lastEdited == now
    ensures IsBlank(n)
  {
    Note(id, "", "", [], now, false)
  }

  /** The timestamp an update stamps: `updates.lastEdited || now`. */
  function Stamp(u: Patch, now: string): string {
    if Truthy(u.lastEdited) then u.lastEdited.value else now
  }

  /** `{ ...n, ...u, lastEdited: u.lastEdited || now }`. */
  function Merge(n: Note, u: Patch, now: string): Note {
    Note(
      u.id.GetOr(n.id),
      u.title.GetOr(n.title),
      u.content.GetOr(n.content),
      u.tags.GetOr(n.tags),
      Stamp(u, now),
      u.isArchived.GetOr(n.isArchived))
  }

  function MergeIfId(id: string, u: Patch, now: string): Note -> Note {
    (n: Note) => if n.id == id then Merge(n, u, now) else n
  }

  /**
   * Merges `u` into every note whose id is `id`. Positions are kept, every other
   * note is untouched, and an unknown id changes nothing. An updated note carries
   * `u.lastEdited` when that is a non-empty string and `now` otherwise.
   */
  function Update(notes: seq<Note>, id: string, u: Patch, now: string): (r: seq<Note>)
    ensures |r| == |notes|
    ensures forall i :: 0 <= i < |notes| && notes[i].id != id ==> r[i] == notes[i]
    ensures forall i :: 0 <= i < |notes| && notes[i].id == id ==> r[i] == Merge(notes[i], u, now)
    ensures forall i :: 0 <= i < |notes| && notes[i].id == id ==>
      r[i].lastEdited == (if Truthy(u.lastEdited) then u.lastEdited.value else now)
    ensures u.id.None? ==> forall i :: 0 <= i < |notes| ==> r[i].id == notes[i].id
    ensures (forall n :: n in notes ==> n.id != id) ==> r == notes
  {
    Map(notes, MergeIfId(id, u, now))
  }

  function OtherId(id: string): Note -> bool {
    (n: Note) => n.id != id
  }

  /**
   * The notes whose id is not `id`, in their order: no note with that id remains,
   * every other note does, and an unknown id changes nothing.
   */
  function Delete(notes: seq<Note>, id: string): (r: seq<Note>)
    ensures forall n :: n in r <==> n in notes && n.id != id
    ensures forall n :: n in r ==> n.id != id
    ensures forall n :: multiset(r)[n] == if n.id != id then multiset(notes)[n] else 0
    ensures IsSubsequence(r, notes)
    ensures (forall n :: n in notes ==> n.id != id) ==> r == notes
  {
    var r := Filter(notes, OtherId(id));
    assert forall n :: multiset(r)[n] == if n.id != id then multiset(notes)[n] else 0 by {
      forall n ensures multiset(r)[n] == if n.id != id then multiset(notes)[n] else 0 {
        FilterMultiset(notes, OtherId(id), n);
      }
    }
    assert (forall n :: n in notes ==> n.id != id) ==> r == notes by {
      if forall n :: n in notes ==> n.id != id {
        FilterKeepsAll(notes, OtherId(id));
      }
    }
    r
  }

  function OtherTag(tagId: string): string -> bool {
    (t: string) => t != tagId
  }

  function StripTag(tagId: string): Note -> Note {
    (n: Note) => n.(tags := Filter(n.tags, OtherTag(tagId)))
  }

  /**
   * Every note with `tagId` removed from its tags. Each note keeps every other
   * tag id, in order, and all of its other fields.
   */
  function RemoveTagReference(notes: seq<Note>, tagId: string): (r: seq<Note>)
    ensures |r| == |notes|
    ensures forall i :: 0 <= i < |notes| ==> r[i].(tags := notes[i].tags) == notes[i]
    ensures forall i :: 0 <= i < |notes| ==> r[i].tags == Filter(notes[i].tags, OtherTag(tagId))
    ensures forall i :: 0 <= i < |notes| ==> tagId !in r[i].tags
    ensures forall i, t :: 0 <= i < |notes| && t in notes[i].tags && t != tagId ==> t in r[i].tags
  {
    Map(notes, StripTag(tagId))
  }

  /** Stripping a tag id twice is stripping it once. */
  lemma RemoveTagReferenceIdempotent(notes: seq<Note>, tagId: string)
    ensures RemoveTagReference(RemoveTagReference(notes, tagId), tagId) == RemoveTagReference(notes, tagId)
  {
    var once := RemoveTagReference(notes, tagId);
    var twice := RemoveTagReference(once, tagId);
    forall i | 0 <= i < |notes| ensures twice[i] == once[i] {
      FilterIdempotent(notes[i].tags, OtherTag(tagId));
    }
  }
}

=== FILE: notes_context.dfy ===
/**
 * The provider the whole interface reads from: it joins the stored collections
 * with the URL state, computes the list of visible notes, and composes the
 * operations that touch both (creating, deleting and archiving a note also move
 * the URL).
 */
module NotesContext {
  import opened Wrappers
  import opened Types
  import Navigation
  import Manager
  import NoteService
  import FilteredNotes

  class NotesProvider {
    const manager: Manager.NotesManager
    const navigation: Navigation.Navigator
    /** How a `lastEdited` text becomes a time for sorting (`new Date(x).getTime()`). */
    const epoch: string -> int

    constructor (manager: Manager.NotesManager, navigation: Navigation.Navigator, epoch: string -> int)
      ensures this.manager == manager && this.navigation == navigation && this.epoch == epoch
    {
      this.manager := manager;
      this.navigation := navigation;
      this.epoch := epoch;
    }

    /** `notes`: the stored notes the current search, tag and view let through, most recent first. */
    function Notes(): (r: seq<Note>)
      reads manager, navigation
      ensures var st := navigation.State();
              forall n :: multiset(r)[n] ==
                if FilteredNotes.Matches(n, navigation.SearchQuery(), st.selectedTagId, st.view)
                then multiset(manager.notes)[n] else 0
      ensures FilteredNotes.Sorted(r, epoch)
    {
      var st := navigation.State();
      FilteredNotes.FilterNotes(manager.notes, navigation.SearchQuery(), st.selectedTagId, st.view, epoch)
    }

    /** `allNotes`: the manager's whole list, of which `notes` is a part. */
    function AllNotes(): (r: seq<Note>)
      reads manager, navigation
      ensures r == manager.notes
      ensures forall n :: multiset(Notes())[n] <= multiset(r)[n]
    {
      manager.notes
    }

    /** `createNote()`: stores a blank note at the front and opens it in the current context. */
    method CreateNote(id: string, now: string)
      requires manager.Valid()
      requires forall m :: m in manager.notes ==> m.id != id
      modifies manager, navigation
      ensures manager.Valid()
      ensures manager.notes == [NoteService.CreateDefaultNote(id, now)] + old(manager.notes)
      ensures manager.tags == old(manager.tags)
      ensures navigation.location == Navigation.GetPathForNote(old(navigation.location), Some(id), false)
      ensures Navigation.Addressable(old(navigation.State()), Some(id)) ==>
        navigation.State() == old(navigation.State()).(activeNoteId := Some(id), isDeleting := false)
    {
      var n := manager.CreateNote(id, now);
      navigation.SetActiveNoteId(Some(n.id));
    }

    /**
     * `deleteNote(id)`: removes the note; if it was open, nothing is open
     * afterwards, otherwise the open note stays open. Either way the delete
     * dialog closes.
     */
    method DeleteNote(id: string)
      requires manager.Valid()
      modifies manager, navigation
      ensures manager.Valid()
      ensures manager.notes == NoteService.Delete(old(manager.notes), id)
      ensures manager.tags == old(manager.tags)
      ensures navigation.location == Navigation.GetPathForNote(old(navigation.location),
        if old(navigation.State()).activeNoteId == Some(id) then None else old(navigation.State()).activeNoteId, false)
      ensures Navigation.Addressable(old(navigation.State()), old(navigation.State()).activeNoteId) ==>
        navigation.State() == old(navigation.State()).(
          activeNoteId := if old(navigation.State()).activeNoteId == Some(id) then None
                          else old(navigation.State()).activeNoteId,
          isDeleting := false)
      ensures Navigation.Addressable(old(navigation.State()), old(navigation.State()).activeNoteId) ==>
        navigation.State().activeNoteId != Some(id) && !navigation.State().isDeleting
    {
      var wasActive := navigation.State().activeNoteId == Some(id);
      manager.DeleteNote(id);
      if wasActive {
        navigation.SetActiveNoteId(None);
      } else {
        navigation.CloseDeleteModal();
      }
    }

    /** `archiveNote(id)`: archives the note and, if it was open, closes it. */
    method ArchiveNote(id: string, now: string)
      requires manager.Valid()
      modifies manager, navigation
      ensures manager.Valid()
      ensures manager.notes == NoteService.Update(old(manager.notes), id, EmptyPatch.(isArchived := Some(true)), now)
      ensures manager.tags == old(manager.tags)
      ensures old(navigation.State()).activeNoteId == Some(id) ==>
        navigation.location == Navigation.GetPathForNote(old(navigation.location), None, false)
      ensures old(navigation.State()).activeNoteId != Some(id) ==> navigation.location == old(navigation.location)
      ensures Navigation.Addressable(old(navigation.State()), None) ==>
        navigation.State().activeNoteId != Some(id)
    {
      var wasActive := navigation.State().activeNoteId == Some(id);
      manager.ArchiveNote(id, now);
      if wasActive {
        navigation.SetActiveNoteId(None);
      }
    }

    /** `unarchiveNote(id)`: the manager's operation, with the URL left alone. */
    method UnarchiveNote(id: string, now: string)
      requires manager.Valid()
      modifies manager
      ensures manager.Valid()
      ensures manager.notes == NoteService.Update(old(manager.notes), id, EmptyPatch.(isArchived := Some(false)), now)
      ensures manager.tags == old(manager.tags)
    {
      manager.UnarchiveNote(id, now);
    }
  }
}

=== FILE: notes_manager.dfy ===
/**
 * The notes manager: the one owner of the note and tag collections. Every
 * operation replaces a collection with a new value computed by the note and tag
 * services, and every replacement is written back to storage.
 */
module Manager {
  import opened Wrappers
  import opened Text
  import opened Types
  import NoteService
  import TagService

  /** Some tag in `tags` has id `id`. */
  predicate HasTagId(tags: seq<Tag>, id: string) {
    exists t :: t in tags && t.id == id
  }

  /** Every tag id a note refers to names a tag of the collection. */
  predicate NoDanglingTags(notes: seq<Note>, tags: seq<Tag>) {
    forall n, id :: n in notes && id in n.tags ==> HasTagId(tags, id)
  }

  /** No two tags have names that are equal up to case. */
  predicate UniqueNames(tags: seq<Tag>) {
    forall i, j :: 0 <= i < j < |tags| ==> Lower(tags[i].name) != Lower(tags[j].name)
  }

  /** What `addTag` returns, with the tag collection it leaves behind. */
  datatype Added = Added(tag: Tag, tags: seq<Tag>)

  /**
   * `addTag(name)`: the first existing tag whose name matches `name` up to case, with
   * the collection unchanged; otherwise a new tag named exactly `name`, appended.
   * The returned tag always matches `name` up to case and belongs to the new
   * collection, which grows by at most one.
   */
  function AddTagTo(tags: seq<Tag>, name: string, freshId: string): (r: Added)
    ensures TagService.SameName(r.tag, name) && r.tag in r.tags
    ensures |tags| <= |r.tags| <= |tags| + 1 && r.tags[..|tags|] == tags
    ensures |r.tags| == |tags| + 1 <==> forall t :: t in tags ==> !TagService.SameName(t, name)
    ensures |r.tags| == |tags| + 1 ==> r.tag == Tag(freshId, name)
    ensures |r.tags| == |tags| ==> r.tags == tags
    ensures |r.tags| == |tags| ==>
      TagService.IndexOfName(tags, name) < |tags| && r.tag == tags[TagService.IndexOfName(tags, name)]
  {
    match TagService.FindByName(tags, name)
    case Some(existing) => Added(existing, tags)
    case None =>
      var t := TagService.Create(freshId, name);
      assert (tags + [t])[..|tags|] == tags;
      Added(t, tags + [t])
  }

  /** `addTag` never introduces a second tag with the same name up to case. */
  lemma AddTagKeepsNamesUnique(tags: seq<Tag>, name: string, freshId: string)
    requires UniqueNames(tags)
    ensures UniqueNames(AddTagTo(tags, name, freshId).tags)
  {
    var r := AddTagTo(tags, name, freshId);
    if |r.tags| == |tags| + 1 {
      forall i | 0 <= i < |tags| ensures Lower(r.tags[i].name) != Lower(r.tags[|tags|].name) {
        assert r.tags[i] == tags[i];
        assert !TagService.SameName(tags[i], name);
      }
    }
  }

  /**
   * Two `addTag` calls whose names differ only in case give the same tag, and the
   * second leaves the collection as the first left it.
   */
  lemma AddTagCaseVariants(tags: seq<Tag>, name1: string, id1: string, name2: string, id2: string)
    requires Lower(name1) == Lower(name2)
    ensures var first := AddTagTo(tags, name1, id1);
            var second := AddTagTo(first.tags, name2, id2);
            second.tag.id == first.tag.id && second.tags == first.tags && |first.tags| <= |tags| + 1
  {
    var first := AddTagTo(tags, name1, id1);
    TagService.IndexOfNameIgnoresCase(first.tags, name1, name2);
    TagService.IndexOfNameIgnoresCase(tags, name1, name2);
  }

  /**
   * `deleteTag(id)`: the tag is gone, no note refers to it any more, and a
   * collection with no dangling tag ids still has none.
   */
  lemma DeleteTagLeavesNoDangling(notes: seq<Note>, tags: seq<Tag>, id: string)
    requires NoDanglingTags(notes, tags)
    ensures NoDanglingTags(NoteService.RemoveTagReference(notes, id), TagService.Delete(tags, id))
    ensures !HasTagId(TagService.Delete(tags, id), id)
    ensures forall n :: n in NoteService.RemoveTagReference(notes, id) ==> id !in n.tags
  {
    var notes' := NoteService.RemoveTagReference(notes, id);
    var tags' := TagService.Delete(tags, id);
    forall n, t | n in notes' && t in n.tags ensures HasTagId(tags', t) {
      var i :| 0 <= i < |notes'| && notes'[i] == n;
      assert t in notes[i].tags && t != id;
      assert HasTagId(tags, t);
      var g :| g in tags && g.id == t;
      assert g in tags';
    }
  }

  /**
   * `updateTag` does not look for a name clash: renaming can leave two tags whose
   * names are equal up to case.
   */
  lemma UpdateTagMayDuplicateNames()
    ensures var before := [Tag("a", "Work"), Tag("b", "Home")];
            UniqueNames(before) && !UniqueNames(TagService.Update(before, "b", "work"))
  {
    var before := [Tag("a", "Work"), Tag("b", "Home")];
    var after := TagService.Update(before, "b", "work");
    assert Lower(after[0].name) == Lower(after[1].name) by {
      assert after[0].name == "Work" && after[1].name == "work";
    }
    assert Lower(before[0].name)[0] != Lower(before[1].name)[0];
  }

  /**
   * The state `useNotesManager` keeps: the two collections, and what was last
   * written to storage under the notes and tags keys.
   */
  class NotesManager {
    var notes: seq<Note>
    var tags: seq<Tag>
    ghost var persistedNotes: seq<Note>
    ghost var persistedTags: seq<Tag>

    /** The persist-on-change effects: storage always holds the collections in memory. */
    ghost predicate Valid()
      reads this
    {
      persistedNotes == notes && persistedTags == tags
    }

    /** Starts from what storage returned for the two keys (empty when absent or invalid). */
    constructor (storedNotes: seq<Note>, storedTags: seq<Tag>)
      ensures Valid()
      ensures notes == storedNotes && tags == storedTags
    {
      notes, tags := storedNotes, storedTags;
      persistedNotes, persistedTags := storedNotes, storedTags;
    }

    /** `createNote()`: a blank note with a fresh id goes to the front; the others follow in order. */
    method CreateNote(id: string, now: string) returns (n: Note)
      requires Valid()
      requires forall m :: m in notes ==> m.id != id
      modifies this
      ensures Valid()
      ensures n == NoteService.CreateDefaultNote(id, now)
      ensures NoteService.IsBlank(n) && n.id == id && n.lastEdited == now
      ensures notes == [n] + old(notes) && tags == old(tags)
    {
      n := NoteService.CreateDefaultNote(id, now);
      notes := [n] + notes;
      persistedNotes := notes;
    }

    /** `updateNote(id, u)`: merges `u` into the notes with that id, stamping `now` unless `u` brings a timestamp. */
    method UpdateNote(id: string, u: Patch, now: string)
      requires Valid()
      modifies this
      ensures Valid()
      ensures notes == NoteService.Update(old(notes), id, u, now) && tags == old(tags)
    {
      notes := NoteService.Update(notes, id, u, now);
      persistedNotes := notes;
    }

    /** `deleteNote(id)`. */
    method DeleteNote(id: string)
      requires Valid()
      modifies this
      ensures Valid()
      ensures notes == NoteService.Delete(old(notes), id) && tags == old(tags)
      ensures forall n :: n in notes ==> n.id != id
    {
      notes := NoteService.Delete(notes, id);
      persistedNotes := notes;
    }

    /** `archiveNote(id)`: an update of `isArchived` to true, which also refreshes `lastEdited`. */
    method ArchiveNote(id: string, now: string)
      requires Valid()
      modifies this
      ensures Valid()
      ensures notes == NoteService.Update(old(notes), id, EmptyPatch.(isArchived := Some(true)), now)
      ensures tags == old(tags)
      ensures forall n :: n in notes && n.id == id ==> n.isArchived && n.lastEdited == now
    {
      UpdateNote(id, EmptyPatch.(isArchived := Some(true)), now);
    }

    /** `unarchiveNote(id)`: an update of `isArchived` to false, which also refreshes `lastEdited`. */
    method UnarchiveNote(id: string, now: string)
      requires Valid()
      modifies this
      ensures Valid()
      ensures notes == NoteService.Update(old(notes), id, EmptyPatch.(isArchived := Some(false)), now)
      ensures tags == old(tags)
      ensures forall n :: n in notes && n.id == id ==> !n.isArchived && n.lastEdited == now
    {
      UpdateNote(id, EmptyPatch.(isArchived := Some(false)), now);
    }

    /** `addTag(name)`: the existing tag matching `name` up to case, or a new one appended. */
    method AddTag(name: string, freshId: string) returns (t: Tag)
      requires Valid()
      requires forall g :: g in tags ==> g.id != freshId
      modifies this
      ensures Valid()
      ensures Added(t, tags) == AddTagTo(old(tags), name, freshId)
      ensures notes == old(notes)
    {
      var r := AddTagTo(tags, name, freshId);
      t := r.tag;
      if r.tags != tags {
        tags := r.tags;
        persistedTags := tags;
      }
    }

    /** `updateTag(id, name)`: renames in place, without checking for a clash. */
    method UpdateTag(id: string, name: string)
      requires Valid()
      modifies this
      ensures Valid()
      ensures tags == TagService.Update(old(tags), id, name) && notes == old(notes)
    {
      tags := TagService.Update(tags, id, name);
      persistedTags := tags;
    }

    /** `deleteTag(id)`: removes the tag and strips its id from every note. */
    method DeleteTag(id: string)
      requires Valid()
      modifies this
      ensures Valid()
      ensures tags == TagService.Delete(old(tags), id)
      ensures notes == NoteService.RemoveTagReference(old(notes), id)
      ensures NoDanglingTags(old(notes), old(tags)) ==> NoDanglingTags(notes, tags)
    {
      if NoDanglingTags(notes, tags) {
        DeleteTagLeavesNoDangling(notes, tags, id);
      }
      tags := TagService.Delete(tags, id);
      notes := NoteService.RemoveTagReference(notes, id);
      persistedTags, persistedNotes := tags, notes;
    }
  }
}

=== FILE: seqs.dfy ===
/**
 * The two array operations every core file is built from: `Array.prototype.filter`
 * and `Array.prototype.map`, defined once over sequences, with the facts the rest
 * of the model relies on (order, membership, idempotence, congruence).
 */
module Seqs {

  /** `r` is what remains of `s` after deleting some of its elements: the order of `s` is kept. */
  predicate IsSubsequence<T(==)>(r: seq<T>, s: seq<T>)
    decreases |s|
  {
    if r == [] then true
    else if s == [] then false
    else (r[0] == s[0] && IsSubsequence(r[1..], s[1..])) || IsSubsequence(r, s[1..])
  }

  /** The elements of `s` that satisfy `p`, in their original order. */
  function Filter<T(!new)>(s: seq<T>, p: T -> bool): (r: seq<T>)
    ensures |r| <= |s|
    ensures forall x :: x in r <==> x in s && p(x)
    ensures IsSubsequence(r, s)
  {
    if s == [] then []
    else
      var rest := Filter(s[1..], p);
      var r := (if p(s[0]) then [s[0]] else []) + rest;
      assert p(s[0]) ==> r[0] == s[0] && r[1..] == rest;
      assert !p(s[0]) ==> r == rest;
      r
  }

  /** `f` applied to every element, positions kept. */
  function Map<T, U>(s: seq<T>, f: T -> U): (r: seq<U>)
    ensures |r| == |s|
    ensures forall i :: 0 <= i < |s| ==> r[i] == f(s[i])
  {
    seq(|s|, i requires 0 <= i < |s| => f(s[i]))
  }

  /** Filtering distributes over concatenation: kept elements stay in their order. */
  lemma {:induction false} FilterConcat<T(!new)>(a: seq<T>, b: seq<T>, p: T -> bool)
    ensures Filter(a + b, p) == Filter(a, p) + Filter(b, p)
  {
    if a != [] {
      assert (a + b)[1..] == a[1..] + b;
      FilterConcat(a[1..], b, p);
    } else {
      assert a + b == b;
    }
  }

  /** When every element already satisfies `p`, filtering changes nothing. */
  lemma {:induction false} FilterKeepsAll<T(!new)>(s: seq<T>, p: T -> bool)
    requires forall x :: x in s ==> p(x)
    ensures Filter(s, p) == s
  {
    if s != [] {
      FilterKeepsAll(s[1..], p);
    }
  }

  /** When no element satisfies `p`, nothing is kept. */
  lemma {:induction false} FilterKeepsNone<T(!new)>(s: seq<T>, p: T -> bool)
    requires forall x :: x in s ==> !p(x)
    ensures Filter(s, p) == []
  {
    if s != [] {
      FilterKeepsNone(s[1..], p);
    }
  }

  /** Filtering twice by the same predicate is filtering once. */
  lemma FilterIdempotent<T(!new)>(s: seq<T>, p: T -> bool)
    ensures Filter(Filter(s, p), p) == Filter(s, p)
  {
    FilterKeepsAll(Filter(s, p), p);
  }

  /** Two predicates that agree on the elements of `s` filter it alike. */
  lemma {:induction false} FilterCongruent<T(!new)>(s: seq<T>, p: T -> bool, q: T -> bool)
    requires forall x :: x in s ==> p(x) == q(x)
    ensures Filter(s, p) == Filter(s, q)
  {
    if s != [] {
      FilterCongruent(s[1..], p, q);
    }
  }

  /** Filtering keeps each kept element exactly as often as it occurs. */
  lemma {:induction false} FilterMultiset<T(!new)>(s: seq<T>, p: T -> bool, x: T)
    ensures multiset(Filter(s, p))[x] == if p(x) then multiset(s)[x] else 0
  {
    if s != [] {
      FilterMultiset(s[1..], p, x);
      assert s == [s[0]] + s[1..];
    }
  }

  /** A subsequence holds each element at most as often as the sequence it came from. */
  lemma {:induction false} SubsequenceMultiset<T>(r: seq<T>, s: seq<T>)
    requires IsSubsequence(r, s)
    ensures multiset(r) <= multiset(s)
  {
    if r != [] {
      assert s == [s[0]] + s[1..];
      if r[0] == s[0] && IsSubsequence(r[1..], s[1..]) {
        SubsequenceMultiset(r[1..], s[1..]);
        assert r == [r[0]] + r[1..];
      } else {
        SubsequenceMultiset(r, s[1..]);
      }
    }
  }

  /**
   * The filter is the only order-keeping selection from `s` that holds every
   * element satisfying `p` as often as `s` does, and nothing else.
   */
  lemma {:induction false} FilterUnique<T(!new)>(r: seq<T>, s: seq<T>, p: T -> bool)
    requires IsSubsequence(r, s)
    requires forall x :: multiset(r)[x] == if p(x) then multiset(s)[x] else 0
    ensures r == Filter(s, p)
  {
    if s == [] {
    } else if r == [] {
      forall x | x in s ensures !p(x) {
        assert multiset(s)[x] > 0;
      }
      FilterKeepsNone(s, p);

    } else {
      var x := s[0];
      assert s == [x] + s[1..];
      assert r == [r[0]] + r[1..];
      if r[0] == x && IsSubsequence(r[1..], s[1..]) {
        assert multiset(r)[x] > 0;
        assert p(x);
        forall y ensures multiset(r[1..])[y] == if p(y) then multiset(s[1..])[y] else 0 {
          assert multiset(r)[y] == multiset(r[1..])[y] + (if y == x then 1 else 0);
          assert multiset(s)[y] == multiset(s[1..])[y] + (if y == x then 1 else 0);
        }
        FilterUnique(r[1..], s[1..], p);
      } else {
        SubsequenceMultiset(r, s[1..]);
        // Skipping `x` when `p(x)` would leave `r` one copy of `x` short.
        assert !p(x);
        forall y ensures multiset(r)[y] == if p(y) then multiset(s[1..])[y] else 0 {
          assert multiset(s)[y] == multiset(s[1..])[y] + (if y == x then 1 else 0);
        }
        FilterUnique(r, s[1..], p);
      }
    }
  }
}

=== FILE: tag_item.dfy ===
/**
 * One row of the tag settings list: it renames its tag in place through an edit
 * field, and deletes the tag after a confirmation. The tag the row shows is passed
 * in on every call, as the component receives it on every render.
 */
module TagItem {
  import opened Text
  import opened Types
  import Manager
  import NoteService
  import TagService

  class TagRow {
    const manager: Manager.NotesManager
    var isEditing: bool
    var editName: string

    /** A row starts out not editing, with the field holding the tag's name. */
    constructor (manager: Manager.NotesManager, tag: Tag)
      ensures this.manager == manager
      ensures !isEditing && editName == tag.name
    {
      this.manager := manager;
      isEditing := false;
      editName := tag.name;
    }

    method SetEditName(name: string)
      modifies this
      ensures editName == name && isEditing == old(isEditing)
    {
      editName := name;
    }

    /** `startEditing()`. */
    method StartEditing()
      modifies this
      ensures isEditing && editName == old(editName)
    {
      isEditing := true;
    }

    /** `exitEditing()`: leaves edit mode and puts the tag's current name back in the field. */
    method ExitEditing(tag: Tag)
      modifies this
      ensures !isEditing && editName == tag.name
    {
      isEditing := false;
      editName := tag.name;
    }

    /**
     * `handleSubmit()`: a field holding only whitespace is refused and nothing
     * changes; otherwise the tag takes the trimmed text as its name and the row
     * leaves edit mode.
     */
    method HandleSubmit(tag: Tag)
      requires manager.Valid()
      modifies this, manager
      ensures manager.Valid() && manager.notes == old(manager.notes)
      ensures editName == old(editName)
      ensures AllWhitespace(old(editName)) ==>
        manager.tags == old(manager.tags) && isEditing == old(isEditing)
      ensures !AllWhitespace(old(editName)) ==>
        manager.tags == TagService.Update(old(manager.tags), tag.id, Trim(old(editName))) && !isEditing
      ensures forall i :: 0 <= i < |manager.tags| && manager.tags[i].id == tag.id && !AllWhitespace(old(editName)) ==>
        manager.tags[i].name != "" && manager.tags[i].name == Trim(manager.tags[i].name)
    {
      var name := Trim(editName);
      if name != "" {
        TrimIdempotent(editName);
        manager.UpdateTag(tag.id, name);
        isEditing := false;
      }
    }

    /**
     * `handleDelete()`: when the confirmation dialog (its answer passed in as
     * `confirmed`) is accepted, the tag goes and every note loses it.
     */
    method HandleDelete(tag: Tag, confirmed: bool)
      requires manager.Valid()
      modifies manager
      ensures manager.Valid()
      ensures !confirmed ==> manager.tags == old(manager.tags) && manager.notes == old(manager.notes)
      ensures confirmed ==>
        manager.tags == TagService.Delete(old(manager.tags), tag.id) &&
        manager.notes == NoteService.RemoveTagReference(old(manager.notes), tag.id)
      ensures confirmed ==> forall n :: n in manager.notes ==> tag.id !in n.tags
      ensures Manager.NoDanglingTags(old(manager.notes), old(manager.tags)) ==>
        Manager.NoDanglingTags(manager.notes, manager.tags)
    {
      if confirmed {
        manager.DeleteTag(tag.id);
      }
    }
  }
}

=== FILE: tag_navigation.dfy ===
/**
 * Keyboard selection in the tag input: the suggestions for the typed text, a
 * highlighted row that moves with the arrow keys (one row past the suggestions
 * stands for "create a new tag"), Enter to pick and Escape to clear.
 */
module TagNavigation {
  import opened Seqs
  import opened Text
  import opened Types

  /** The tag's name contains the typed text, ignoring case, and the note does not carry the tag yet. */
  function Suggested(selectedTags: seq<string>, input: string): Tag -> bool {
    (t: Tag) => Contains(Lower(t.name), Lower(input)) && t.id !in selectedTags
  }

  /** The suggestions, in the order of the tag collection. */
  function Suggestions(tags: seq<Tag>, selectedTags: seq<string>, input: string): (r: seq<Tag>)
    ensures forall t :: t in r <==>
      t in tags && Contains(Lower(t.name), Lower(input)) && t.id !in selectedTags
    ensures IsSubsequence(r, tags)
  {
    Filter(tags, Suggested(selectedTags, input))
  }

  /** Each suggestion is listed as often as it occurs in the tag collection. */
  lemma SuggestionsCount(tags: seq<Tag>, selectedTags: seq<string>, input: string, t: Tag)
    ensures multiset(Suggestions(tags, selectedTags, input))[t] ==
      if Contains(Lower(t.name), Lower(input)) && t.id !in selectedTags then multiset(tags)[t] else 0
  {
    FilterMultiset(tags, Suggested(selectedTags, input), t);
  }

  /** A highlighted suggestion is a stored tag the note does not carry yet. */
  lemma SuggestionIsNew(tags: seq<Tag>, selectedTags: seq<string>, input: string, i: nat)
    requires i < |Suggestions(tags, selectedTags, input)|
    ensures Suggestions(tags, selectedTags, input)[i] in tags
    ensures Suggestions(tags, selectedTags, input)[i].id !in selectedTags
  {
    var sugg := Suggestions(tags, selectedTags, input);
    assert sugg[i] in sugg;
  }

  /** ArrowDown over `n` suggestions plus the create row: one row down, wrapping to the top. */
  function Next(i: nat, n: nat): (j: nat)
    ensures j <= n
    ensures i < n ==> j == i + 1
    ensures i == n ==> j == 0
  {
    (i + 1) % (n + 1)
  }

  /** ArrowUp over `n` suggestions plus the create row: one row up, wrapping to the bottom. */
  function Prev(i: nat, n: nat): (j: nat)
    ensures j <= n
    ensures 0 < i <= n ==> j == i - 1
    ensures i == 0 ==> j == n
  {
    (i - 1 + (n + 1)) % (n + 1)
  }

  /** Up undoes Down and Down undoes Up, on every row of the list. */
  lemma PrevNextInverse(i: nat, n: nat)
    requires i <= n
    ensures Prev(Next(i, n), n) == i
    ensures Next(Prev(i, n), n) == i
  {
  }

  /** Pressing Down `k` times, starting on row `i`. */
  function NextTimes(i: nat, n: nat, k: nat): (j: nat)
    requires i <= n
    ensures j <= n
  {
    if k == 0 then i else Next(NextTimes(i, n, k - 1), n)
  }

  /**
   * Up to one full round, `k` presses of Down land `k` rows further on, counting
   * from the top again after the create row.
   */
  lemma {:induction false} NextTimesIsShift(i: nat, n: nat, k: nat)
    requires i <= n && k <= n + 1
    ensures NextTimes(i, n, k) == if i + k <= n then i + k else i + k - (n + 1)
  {
    if k > 0 {
      NextTimesIsShift(i, n, k - 1);
    }
  }

  /** After one press of Down per row, the highlight is back where it started. */
  lemma NextCycles(i: nat, n: nat)
    requires i <= n
    ensures NextTimes(i, n, n + 1) == i
  {
    NextTimesIsShift(i, n, n + 1);
  }

  datatype Key = ArrowDown | ArrowUp | Enter | Escape | Other

  /** The callback a key press makes, if any. */
  datatype Request = NoRequest | AddExisting(tagId: string) | AddNew(name: string)

  /** The input's state: the typed text and the highlighted row. */
  class TagNavigator {
    var newTagName: string
    var selectedIndex: nat

    constructor ()
      ensures newTagName == "" && selectedIndex == 0
    {
      newTagName := "";
      selectedIndex := 0;
    }

    method SetNewTagName(name: string)
      modifies this
      ensures newTagName == name && selectedIndex == old(selectedIndex)
    {
      newTagName := name;
    }

    method SetSelectedIndex(i: nat)
      modifies this
      ensures selectedIndex == i && newTagName == old(newTagName)
    {
      selectedIndex := i;
    }

    /**
     * `handleKeyDown`: with empty input nothing happens. The arrows move the
     * highlight over the suggestions and the create row. Enter picks the
     * highlighted suggestion, or, on the create row, asks for a tag named by the
     * trimmed text if that is not blank; then the input clears. Escape clears it.
     */
    method HandleKeyDown(key: Key, tags: seq<Tag>, selectedTags: seq<string>) returns (req: Request)
      modifies this
      ensures var sugg := Suggestions(tags, selectedTags, old(newTagName));
              var i := old(selectedIndex);
              && (old(newTagName) == "" || key == Other ==>
                    req == NoRequest && newTagName == old(newTagName) && selectedIndex == i)
              && (old(newTagName) != "" && key == ArrowDown ==>
                    req == NoRequest && newTagName == old(newTagName) && selectedIndex == Next(i, |sugg|))
              && (old(newTagName) != "" && key == ArrowUp ==>
                    req == NoRequest && newTagName == old(newTagName) && selectedIndex == Prev(i, |sugg|))
              && (old(newTagName) != "" && key == Enter ==>
                    newTagName == "" && selectedIndex == 0 &&
                    req == if i < |sugg| then AddExisting(sugg[i].id)
                           else if Trim(old(newTagName)) != "" then AddNew(Trim(old(newTagName)))
                           else NoRequest)
              && (old(newTagName) != "" && key == Escape ==>
                    req == NoRequest && newTagName == "" && selectedIndex == 0)
      ensures req.AddExisting? ==>
        req.tagId !in selectedTags && exists t :: t in tags && t.id == req.tagId
      ensures req.AddNew? ==> req.name != "" && req.name == Trim(req.name)
    {
      req := NoRequest;
      if newTagName == "" {
        return;
      }
      var sugg := Suggestions(tags, selectedTags, newTagName);
      match key {
        case ArrowDown =>
          selectedIndex := (selectedIndex + 1) % (|sugg| + 1);
        case ArrowUp =>
          selectedIndex := (selectedIndex - 1 + (|sugg| + 1)) % (|sugg| + 1);
        case Enter =>
          if selectedIndex < |sugg| {
            SuggestionIsNew(tags, selectedTags, newTagName, selectedIndex);
            req := AddExisting(sugg[selectedIndex].id);
          } else {
            var name := Trim(newTagName);
            if name != "" {
              TrimIdempotent(newTagName);
              req := AddNew(name);
            }
          }
          newTagName, selectedIndex := "", 0;
        case Escape =>
          newTagName, selectedIndex := "", 0;
        case Other =>
      }
    }
  }
}

=== FILE: tag_service.dfy ===
/**
 * The stateless operations on a list of tags: create, rename by id, delete by id,
 * look up by name ignoring case, and look up a name by id.
 */
module TagService {
  import opened Wrappers
  import opened Seqs
  import opened Text
  import opened Types

  /** A new tag; the name is kept exactly as given, untrimmed. */
  function Create(id: string, name: string): (t: Tag)
    ensures t.id == id && t.name == name
  {
    Tag(id, name)
  }

  function RenameIfId(id: string, name: string): Tag -> Tag {
    (t: Tag) => if t.id == id then t.(name := name) else t
  }

  /**
   * Renames the tags whose id is `id`. Positions and ids are kept and every other
   * tag keeps its name.
   */
  function Update(tags: seq<Tag>, id: string, name: string): (r: seq<Tag>)
    ensures |r| == |tags|
    ensures forall i :: 0 <= i < |tags| ==> r[i].id == tags[i].id
    ensures forall i :: 0 <= i < |tags| ==> r[i].name == if tags[i].id == id then name else tags[i].name
  {
    Map(tags, RenameIfId(id, name))
  }

  function OtherId(id: string): Tag -> bool {
    (t: Tag) => t.id != id
  }

  /** The tags whose id is not `id`, in their order, each as often as before. */
  function Delete(tags: seq<Tag>, id: string): (r: seq<Tag>)
    ensures forall t :: t in r <==> t in tags && t.id != id
    ensures forall t :: multiset(r)[t] == if t.id != id then multiset(tags)[t] else 0
    ensures IsSubsequence(r, tags)
  {
    var r := Filter(tags, OtherId(id));
    assert forall t :: multiset(r)[t] == if t.id != id then multiset(tags)[t] else 0 by {
      forall t ensures multiset(r)[t] == if t.id != id then multiset(tags)[t] else 0 {
        FilterMultiset(tags, OtherId(id), t);
      }
    }
    r
  }

  /** The tag's name equals `name` once both are lowercased. */
  predicate SameName(t: Tag, name: string) {
    Lower(t.name) == Lower(name)
  }

  /** The position of the first tag named `name` up to case, or `|tags|` when there is none. */
  function IndexOfName(tags: seq<Tag>, name: string): (k: nat)
    ensures k <= |tags|
    ensures forall j :: 0 <= j < k ==> !SameName(tags[j], name)
    ensures k < |tags| ==> SameName(tags[k], name)
  {
    if tags == [] then 0
    else if SameName(tags[0], name) then 0
    else 1 + IndexOfName(tags[1..], name)
  }

  /** The lookup by name sees only the lowercased name. */
  lemma {:induction false} IndexOfNameIgnoresCase(tags: seq<Tag>, name1: string, name2: string)
    requires Lower(name1) == Lower(name2)
    ensures IndexOfName(tags, name1) == IndexOfName(tags, name2)
  {
    if tags != [] {
      IndexOfNameIgnoresCase(tags[1..], name1, name2);
    }
  }

  /**
   * `tags.find(t => t.name.toLowerCase() === name.toLowerCase())`: the first tag
   * whose name matches up to case; none exactly when no tag matches.
   */
  function FindByName(tags: seq<Tag>, name: string): (r: Option<Tag>)
    ensures r.None? <==> forall t :: t in tags ==> !SameName(t, name)
    ensures r.Some? ==> r.value in tags && SameName(r.value, name)
    ensures r.Some? ==> r.value == tags[IndexOfName(tags, name)]
  {
    var k := IndexOfName(tags, name);
    if k < |tags| then Some(tags[k]) else None
  }

  /** The position of the first tag with id `id`, or `|tags|` when there is none. */
  function IndexOfId(tags: seq<Tag>, id: string): (k: nat)
    ensures k <= |tags|
    ensures forall j :: 0 <= j < k ==> tags[j].id != id
    ensures k < |tags| ==> tags[k].id == id
  {
    if tags == [] then 0
    else if tags[0].id == id then 0
    else 1 + IndexOfId(tags[1..], id)
  }

  /**
   * `tags.find(t => t.id === id)?.name || ''`: the name of the first tag with that
   * id, or the empty string when no tag has it.
   */
  function GetName(tags: seq<Tag>, id: string): (r: string)
    ensures (forall t :: t in tags ==> t.id != id) ==> r == ""
    ensures forall k :: 0 <= k < |tags| && tags[k].id == id && (forall j :: 0 <= j < k ==> tags[j].id != id) ==>
      r == tags[k].name
  {
    var k := IndexOfId(tags, id);
    if k < |tags| then tags[k].name else ""
  }
}

=== FILE: text.dfy ===
/**
 * The string primitives the core calls: `toLowerCase`, `includes`, `trim`, and the
 * truthiness test JavaScript applies to a `string | null`.
 */
module Text {
  import opened Wrappers

  /** A `string | null` is truthy when it is present and not the empty string. */
  predicate Truthy(s: Option<string>) {
    s.Some? && s.value != ""
  }

  /** ASCII case folding; characters outside A-Z are left alone. */
  function LowerChar(c: char): char {
    if 'A' <= c <= 'Z' then (c as int + 32) as char else c
  }

  /** `s.toLowerCase()`, restricted to ASCII letters. */
  function Lower(s: string): (r: string)
    ensures |r| == |s|
    ensures forall i :: 0 <= i < |s| ==> r[i] == LowerChar(s[i])
    ensures forall i :: 0 <= i < |r| ==> !('A' <= r[i] <= 'Z')
  {
    seq(|s|, i requires 0 <= i < |s| => LowerChar(s[i]))
  }

  /** Lowercasing an already lowercased string changes nothing. */
  lemma LowerIdempotent(s: string)
    ensures Lower(Lower(s)) == Lower(s)
  {
  }

  predicate IsPrefix(p: string, s: string) {
    |p| <= |s| && s[..|p|] == p
  }

  /** `s.includes(sub)`: `sub` occurs in `s` at some position. */
  predicate Contains(s: string, sub: string)
    decreases |s|
  {
    IsPrefix(sub, s) || (s != [] && Contains(s[1..], sub))
  }

  /** `sub` occurs in `s` starting at position `i`. */
  predicate OccursAt(s: string, sub: string, i: int) {
    0 <= i && i + |sub| <= |s| && s[i..i + |sub|] == sub
  }

  /** `includes` holds exactly when some slice of `s` equals `sub`. */
  lemma {:induction false} ContainsAt(s: string, sub: string)
    ensures Contains(s, sub) <==> exists i :: OccursAt(s, sub, i)
  {
    if s != [] {
      ContainsAt(s[1..], sub);
      if Contains(s[1..], sub) {
        var i :| OccursAt(s[1..], sub, i);
        assert s[i + 1..i + 1 + |sub|] == s[1..][i..i + |sub|];
        assert OccursAt(s, sub, i + 1);
      }
      if IsPrefix(sub, s) {
        assert OccursAt(s, sub, 0);
      }
      if i :| OccursAt(s, sub, i) {
        if i > 0 {
          assert s[1..][i - 1..i - 1 + |sub|] == s[i..i + |sub|];
          assert OccursAt(s[1..], sub, i - 1);
        } else {
          assert IsPrefix(sub, s);
        }
      }
    } else {
      if i :| OccursAt(s, sub, i) {
        assert sub == [];
      }
      if sub == [] {
        assert OccursAt(s, sub, 0);
      }
    }
  }

  /** Every string includes the empty string. */
  lemma ContainsEmpty(s: string)
    ensures Contains(s, "")
  {
  }

  /** The characters `String.prototype.trim` removes: WhiteSpace and LineTerminator of ECMA-262. */
  predicate IsWhitespace(c: char) {
    || c == ' ' || c == '\t' || c == '\n' || c == '\r'
    || c == '\U{B}' || c == '\U{C}' || c == '\U{A0}' || c == '\U{1680}'
    || ('\U{2000}' <= c <= '\U{200A}')
    || c == '\U{2028}' || c == '\U{2029}' || c == '\U{202F}' || c == '\U{205F}'
    || c == '\U{3000}' || c == '\U{FEFF}'
  }

  predicate AllWhitespace(s: string) {
    forall i :: 0 <= i < |s| ==> IsWhitespace(s[i])
  }

  /** `s` with its leading whitespace removed. */
  function TrimStart(s: string): (r: string)
    ensures |r| <= |s| && r == s[|s| - |r|..]
    ensures AllWhitespace(s[..|s| - |r|])
    ensures r == [] || !IsWhitespace(r[0])
  {
    if s != [] && IsWhitespace(s[0]) then
      var r := TrimStart(s[1..]);
      assert s[..|s| - |r|] == [s[0]] + s[1..][..|s| - 1 - |r|];
      r
    else
      s
  }

  /** `s` with its trailing whitespace removed. */
  function TrimEnd(s: string): (r: string)
    ensures |r| <= |s| && r == s[..|r|]
    ensures AllWhitespace(s[|r|..])
    ensures r == [] || !IsWhitespace(r[|r| - 1])
  {
    if s != [] && IsWhitespace(s[|s| - 1]) then
      var r := TrimEnd(s[..|s| - 1]);
      assert s[|r|..] == s[..|s| - 1][|r|..] + [s[|s| - 1]];
      r
    else
      s
  }

  /**
   * `s.trim()`: the slice of `s` between its leading and trailing whitespace.
   * It is empty exactly when `s` is blank.
   */
  function Trim(s: string): (r: string)
    ensures r == [] || (!IsWhitespace(r[0]) && !IsWhitespace(r[|r| - 1]))
    ensures OccursAt(s, r, |s| - |TrimStart(s)|)
    ensures AllWhitespace(s[..|s| - |TrimStart(s)|])
    ensures AllWhitespace(s[|s| - |TrimStart(s)| + |r|..])
    ensures r == [] <==> AllWhitespace(s)
  {
    TrimIsSlice(s);
    TrimTailIsBlank(s);
    TrimEmptyIffBlank(s);
    TrimEnd(TrimStart(s))
  }

  lemma TrimIsSlice(s: string)
    ensures OccursAt(s, TrimEnd(TrimStart(s)), |s| - |TrimStart(s)|)
  {
    var t := TrimStart(s);
    var r := TrimEnd(t);
    var k := |s| - |t|;
    SliceOfSuffix(s, k, |r|);
  }

  lemma SliceOfSuffix(s: string, k: nat, n: nat)
    requires k + n <= |s|
    ensures s[k..][..n] == s[k..k + n]
  {
  }

  lemma TrimTailIsBlank(s: string)
    ensures AllWhitespace(s[|s| - |TrimStart(s)| + |TrimEnd(TrimStart(s))|..])
  {
    var t := TrimStart(s);
    var r := TrimEnd(t);
    var k := |s| - |t|;
    var tail := s[k + |r|..];
    forall i | 0 <= i < |tail| ensures IsWhitespace(tail[i]) {
      assert tail[i] == t[|r| + i] == t[|r|..][i];
    }
  }

  lemma TrimEmptyIffBlank(s: string)
    ensures TrimEnd(TrimStart(s)) == [] <==> AllWhitespace(s)
  {
    var t := TrimStart(s);
    var k := |s| - |t|;
    assert s == s[..k] + t;
    if TrimEnd(t) == [] {
      assert t[0..] == t;
      BlankConcat(s[..k], t);
    }
  }

  lemma BlankConcat(a: string, b: string)
    requires AllWhitespace(a) && AllWhitespace(b)
    ensures AllWhitespace(a + b)
  {
    forall i | 0 <= i < |a + b| ensures IsWhitespace((a + b)[i]) {
      if i >= |a| {
        assert (a + b)[i] == b[i - |a|];
      }
    }
  }

  /** Trimming twice is trimming once. */
  lemma TrimIdempotent(s: string)
    ensures Trim(Trim(s)) == Trim(s)
  {
  }
}

=== FILE: types.dfy ===
/** The two records the whole application stores: tags and notes. */
module Types {
  import opened Wrappers

  /** A label that notes refer to by `id`. */
  datatype Tag = Tag(id: string, name: string)

  /**
   * A note. `tags` holds tag ids in the order they were attached; `lastEdited` is
   * the ISO-8601 text the application stores.
   */
  datatype Note = Note(
    id: string,
    title: string,
    content: string,
    tags: seq<string>,
    lastEdited: string,
    isArchived: bool)

  /** `Partial<Note>`: a field that is `None` is absent from the update object. */
  datatype Patch = Patch(
    id: Option<string>,
    title: Option<string>,
    content: Option<string>,
    tags: Option<seq<string>>,
    lastEdited: Option<string>,
    isArchived: Option<bool>)

  /** The update object `{}`. */
  const EmptyPatch: Patch := Patch(None, None, None, None, None, None)
}

=== FILE: wrappers.dfy ===
/** Option stands for the source's `T | null` and `T | undefined` values. */
module Wrappers {

  datatype Option<+T> = None | Some(value: T) {

    /** The value, or `default` when there is none (the source's `x ?? default`). */
    function GetOr(default: T): T {
      match this
      case Some(v) => v
      case None => default
    }
  }
}
